=== FILE: README.md ===
# Air-quality analysis core in Dafny

A model of the computational core of a Python analysis of the WHO ambient
air-quality database. The model covers three pieces:

- **The log-linear forecaster** of `modeling.py`:
  - For one year-indexed pollutant series, keep the finite and strictly positive readings, and refuse the series when fewer than two remain.
  - Shift the years by the earliest kept year.
  - Fit ordinary least squares to (shifted year, ln reading).
  - Return the back-transformed curve at every input year, the prediction at a target year, and four goodness-of-fit figures.
  - The per-column driver runs this on every column of a table and skips the refused ones. The report builder turns the driver's result into rows.
- **The country/city extraction** of `data_loader.py`:
  - Match rows by country, ignoring letter case.
  - Optionally narrow them to cities containing a given text.
  - Group the result by year, averaging each pollutant over its present readings and dropping the years with no reading at all.
- **The map arithmetic** of `map_viz.py`:
  - clamping, and the coordinate-to-pixel mapping;
  - colour-scale choice, clipping, normalisation and the reversed channel order;
  - which rows the map draws;
  - the size and position of the colour bar pasted onto the map.

Modules follow the program's structure:

| Module | Contents |
|---|---|
| `Wrappers` | `Option` and `Result` |
| `Seqs`, `Sums` | sequence filtering, sums and dot products |
| `Series`, `Frame` | the pandas series and table, as the forecaster sees them |
| `Numerics` | `exp`, `log` and `sqrt` as function values, with the laws the model relies on |
| `LeastSquares` | the closed-form linear regression |
| `Metrics` | R², MAE, MSE and RMSE |
| `LogLinear` | the fitter |
| `Forecast` | the per-column driver and the report |
| `History` | what the driver plots, both as written and as intended |
| `Text` | lower-casing and substring search |
| `Loader` | the extraction |
| `MapViz` | the map |

Floating-point quantities are modelled as mathematical reals:

- `NaN` is the `Missing` cell of a series.
- An infinity is `NonFinite` in a series cell, and in a reading or coordinate of the map's frame. The loader's readings are blank or finite (see "## Left out").
- The library routines whose values the model cannot see are parameters of the functions that use them. These are `np.exp`, `np.log`, `np.sqrt`, `np.nanpercentile` and the colormap. Each comes with the few laws the proofs need, such as `exp > 0` and `exp(log y) = y` for `y > 0`, or percentiles that rise with the percentage.
- Python's `int()` of a float is truncation toward zero (`MapViz.Trunc`), written out explicitly.

## Model

| member | source | states |
|---|---|---|
| LogLinear.TrainingSet | modeling.py:14-18 | the training points are exactly the input points whose reading is finite and strictly positive, and no more of them than inputs |
| LogLinear.Offset | modeling.py:20 | the offset is a training year and no training year is earlier |
| LogLinear.TrainingYearsFromZero | modeling.py:20-21 | every shifted training year is non-negative and the earliest shifts to 0 |
| LogLinear.TrainingFittable | modeling.py:15-25 | an accepted series (distinct years, at least two usable readings) gives a well-posed regression: at least two points at distinct abscissae |
| LogLinear.Curve | modeling.py:22-28 | the curve has one value per input point, filtered-out points included; each value is exp of the trend line at that point's shifted year, and is positive |
| LogLinear.FitAcceptedIffTwoPositive | modeling.py:14-16 | the fitter accepts a series exactly when two of its points have a finite, positive reading |
| LogLinear.FitLogLinear | modeling.py:11-47 | fails exactly when fewer than two readings are finite and positive; otherwise `x_full` is the input years unchanged, the offset is the earliest training year, the prediction is exp of the line at the shifted target year and is positive, R² in log space lies in [0, 1], R² of the back-transformed fit is at most 1, and MAE and RMSE are non-negative |
| LogLinear.Diagnose | modeling.py:26-36 | the log-space score lies in [0, 1]; the original-scale score is at most 1; MAE and RMSE are non-negative |
| LogLinear.LogScoreBetween | modeling.py:24-26 | the score of the least-squares line on its own training data lies in [0, 1] |
| LogLinear.TrendLineLeastSquares | modeling.py:24-25 | no line has a smaller squared error in log space than the trend line |
| LogLinear.PredictionFollowsCurve | modeling.py:22-30 | predicting at an input year succeeds and gives the curve's value at that point |
| LogLinear.PredictionMonotone | modeling.py:23-30 | with a non-negative trend slope, a later target year never gets a smaller prediction |
| LogLinear.ExactTrend | modeling.py:17-25 | on readings lying exactly on `exp(g(year))`, the trend line is `g` rewritten in shifted years |
| LogLinear.ExactDiagnostics | modeling.py:26-36 | on exact exponential data both scores are 1 and both errors are 0 |
| LogLinear.ExactExponentialRecovered | modeling.py:11-47 | on exact exponential data the fit succeeds, the curve and prediction are the exponential itself at every input year and at the target, and the diagnostics report a perfect fit |
| LogLinear.FlatSeriesPredictsConstant | modeling.py:17-30 | a series whose usable readings all equal `v` gives curve `v` everywhere and prediction `v` for any target year |
| LeastSquares.SpreadPositive | modeling.py:20-25 | two or more distinct abscissae have a positive spread `Sxx`, so the slope is defined |
| LeastSquares.Fit | modeling.py:24-25 | the closed-form line has slope `Sxy/Sxx` and passes through the centroid |
| LeastSquares.FitSolvesNormalEquations | modeling.py:24-25 | the residuals of the fit sum to zero and are orthogonal to the abscissae |
| LeastSquares.NormalEquationsDetermineFit | modeling.py:24-25 | any line solving the normal equations is the closed-form line |
| LeastSquares.FitMinimisesSquaredError | modeling.py:24-25 | no line has a smaller sum of squared residuals than the fit |
| LeastSquares.FitRecoversExactLine | modeling.py:24-25 | points lying on a line are fitted by exactly that line |
| LeastSquares.FitBeatsMean | modeling.py:24-26 | the fit's squared error is between 0 and the total sum of squares |
| Metrics.ExactIffNoError | modeling.py:35 | the squared-error sum is non-negative, and zero exactly when every prediction is right |
| Metrics.R2Score | modeling.py:33 | the coefficient of determination is at most 1, and equals 1 exactly when every prediction is right |
| Metrics.R2ScoreBetween | modeling.py:26 | a predictor no worse than the mean scores in [0, 1] |
| Metrics.MeanAbsoluteError | modeling.py:34 | non-negative, and zero exactly when every prediction is right |
| Metrics.MeanSquaredError | modeling.py:35 | non-negative, and zero exactly when every prediction is right |
| Metrics.RootMeanSquaredError | modeling.py:36 | non-negative, and zero exactly when every prediction is right |
| Frame.LatestYear | modeling.py:61 | the latest year is in the index and no index year is later |
| Forecast.EffectiveTarget | modeling.py:60-61 | an explicit target is used unchanged; otherwise the target is one past the latest year, so later than every index year |
| Forecast.Outcomes | modeling.py:64-69 | a column has a summary exactly when the fitter accepts its NaN-dropped series, and the summary is that fit's five figures |
| Forecast.Predict | modeling.py:56-59 | an empty table (no rows or no columns) gives an empty result; otherwise no more entries than columns (which entries: `Forecast.PredictEntries`) |
| Forecast.CollectFromOrigins | modeling.py:64-81 | entry `k` of the collected result is the name and summary of the `k`-th column with a summary |
| Forecast.PredictEntries | modeling.py:64-81 | for a non-empty table, entry `k` carries the name and fit summary of the `k`-th accepted column at the effective target year; every accepted column has an entry and no refused column has one |
| Forecast.Report | modeling.py:103-113 | one report row per entry, in the result's order, named after the entry's column |
| Forecast.ReportRoundTrip | modeling.py:103-113 | reading the report rows back gives the driver's result exactly, so no field is lost or reordered |
| History.HistoryLineAsWritten | modeling.py:82 | the historical line as written is refused exactly when `x_full` and the column's cells differ in length |
| History.DropShortensIffGap | modeling.py:66-82 | dropping NaN shortens a column exactly when it has a missing cell |
| History.AsWrittenRefusedIffGap | modeling.py:66-82 | for an accepted column, the plot as written is refused exactly when the column has a missing cell |
| History.CollectAsWrittenSpec | modeling.py:64-84 | the loop as written fails exactly when some accepted column's plot is refused, and otherwise collects what the intended loop collects |
| History.PredictAsWrittenFailsOnGaps | modeling.py:56-84 | on a non-empty table the driver as written fails exactly when some accepted column has a missing cell, and otherwise returns the intended result |
| History.HistoryLine | modeling.py:82 | the intended historical line pairs each index year, in order, with that year's own cell of the column, so the lengths always agree |
| History.ChartOf | modeling.py:82-84 | an accepted column's chart has one history point per index year, one positive fit point per kept reading, and the marker at the target year with the predicted value |
| History.PredictAndPlot | modeling.py:56-84 | the driver with intended plotting returns `Forecast.Predict` and one chart per entry, for the same columns in the same order |
| Text.Lower | data_loader.py:35 | lower-casing keeps the length and lowers each character on its own |
| Text.LowerIdempotent | data_loader.py:35-40 | lower-casing twice is lower-casing once, and changes exactly the strings with an upper-case letter |
| Text.FindFirst | data_loader.py:40 | the search finds a position exactly when the text occurs at or after the start, and that position is the first occurrence |
| Text.ContainsSearch | data_loader.py:40 | the substring search answers true exactly when the text occurs |
| Text.ContainsTrivial | data_loader.py:40 | the empty text occurs in every string, and every string occurs in itself |
| Loader.CountryRows | data_loader.py:35-36 | keeps exactly the rows whose country equals the argument with letter case ignored |
| Loader.CityRows | data_loader.py:40-41 | keeps exactly the rows whose lower-cased city contains the lower-cased argument, and never more rows than given |
| Loader.KeptRows | data_loader.py:35-41 | the rows averaged are those of the country, narrowed by city unless the city argument is empty or "all"; narrowing only shrinks |
| Loader.Values | data_loader.py:44 | the readings of a pollutant for a year are drawn from the present cells of that year's rows, every such cell appears, and there are no more readings than rows |
| Loader.ValuesOfRow | data_loader.py:44 | a single row contributes its own reading when it is of the year and has one, and nothing otherwise |
| Loader.ValuesConcat | data_loader.py:44 | the readings of two stretches of rows are the first stretch's followed by the second's; with the single-row case this fixes one reading per row with a present cell, in row order, repeats included |
| Loader.CellCountsRepeats | data_loader.py:44 | repeated readings each count towards the mean: readings 1, 1 and 4 average to 2 |
| Loader.CellBetween | data_loader.py:44 | a group cell is a number exactly when some row of that year has a reading, and then it lies between any bounds of those readings |
| Loader.CellOfConstant | data_loader.py:44 | a year whose readings all equal `c` averages to `c` |
| Loader.YearsOf | data_loader.py:44 | the group keys are ascending and are exactly the years of the rows |
| Loader.GroupYears | data_loader.py:44 | the kept years are ascending, and are exactly the row years with some pollutant reading |
| Loader.GroupedWellFormed | data_loader.py:44 | the grouped table has an ascending year index, one cell per year in each column, and the three pollutant columns in the source's order |
| Loader.ReportedIffReading | data_loader.py:44 | `dropna(how="all")` keeps a year exactly when some row of that year has a reading of some pollutant |
| Loader.GroupedRows | data_loader.py:44 | the grouped table has a row for a year exactly when that year has a reading, and each cell is that year's mean of the column |
| Loader.GroupNothing | data_loader.py:42-44 | grouping no rows gives the empty pollutant table |
| Loader.MissingPollutants | data_loader.py:8 | lists exactly the pollutant columns the frame lacks |
| Loader.Grouped | data_loader.py:44 | the group-by succeeds exactly when `year` and all pollutant columns exist, and then gives the year grouping |
| Loader.GetProcessedCountryData | data_loader.py:31-45 | a frame without `country_name` is refused with a key error before any filtering; with it, the country-not-found error comes exactly when no row matches the country; any result is a well-formed table |
| Loader.OwnCityKept | data_loader.py:39-41 | a row of the country is kept when the city argument is its own city name |
| Loader.ExtractionGroupsKeptRows | data_loader.py:39-44 | a successful extraction is the year grouping of the kept rows, and without kept rows the table is empty |
| Loader.CityAllIsNoFilter | data_loader.py:39 | an empty city argument, or "all" in any letter case, gives the same result as no city filter |
| Loader.UnknownCityIsEmpty | data_loader.py:40-43 | a city that matches none of the country's rows gives the empty pollutant table, not an error |
| MapViz.Clamp | map_viz.py:13-14 | the result lies in `[lo, hi]` when `lo <= hi`, is `v` when `v` is already there, and is the violated bound otherwise |
| MapViz.ClampIdempotentMonotone | map_viz.py:13-14 | clamping twice is clamping once, inverted bounds give `lo`, and clamping keeps the order of values |
| MapViz.Trunc | map_viz.py:17-18 | `int()` of a float truncates toward zero |
| MapViz.TruncMonotone | map_viz.py:17-18 | truncation keeps the order of values |
| MapViz.CalcPixels | map_viz.py:16-21 | the pixel lies inside a non-empty image, column in `[0, width-1]` and row in `[0, height-1]` |
| MapViz.InsidePixelUnclamped | map_viz.py:16-21 | a coordinate whose unclamped pixel is inside the image is drawn exactly there |
| MapViz.RawXMonotone | map_viz.py:17 | the unclamped column never decreases as the longitude grows |
| MapViz.RawYAntitone | map_viz.py:18 | the unclamped row never increases as the latitude grows |
| MapViz.PixelsFollowCompass | map_viz.py:16-21 | moving east never moves the clamped pixel left, and moving north never moves it down |
| MapViz.SeriesScale | map_viz.py:29-33 | the series scale starts at the 2.5th percentile; it ends at the 97.5th when the two differ, and one unit above its start when they coincide; with a percentile that rises with the percentage it is never empty or inverted |
| MapViz.SeriesScaleSpansPercentiles | map_viz.py:29-37 | with a series scale, readings up to the 2.5th percentile normalise to 0, and readings from the 97.5th percentile on normalise to 1 unless the two percentiles coincide |
| MapViz.ChooseScale | map_viz.py:26-33 | bounds given by the caller are used only when both are given; otherwise the series scale, or 0 to 100 without a series |
| MapViz.ChosenScaleProper | map_viz.py:26-33 | a scale the program chooses itself always has `lo < hi` |
| MapViz.Clip | map_viz.py:34 | the clipped value lies in the scale, and equals the value when it already lies there |
| MapViz.Normalize | map_viz.py:35 | the clipping normaliser refuses exactly the inverted scales, and otherwise gives a position in `[0, 1]` |
| MapViz.NormalizeOrder | map_viz.py:35-37 | on a proper scale the normaliser keeps the order of values and sends the ends to 0 and 1 |
| MapViz.Byte | map_viz.py:39 | a channel becomes `255 * c` truncated toward zero: its whole part for a non-negative channel, so a channel in `[0, 1]` gives an integer in `[0, 255]` |
| MapViz.Channels | map_viz.py:38-39 | a colormap entry with channels in `[0, 1]` gives three bytes |
| MapViz.ChannelsReversed | map_viz.py:38-39 | the output is blue, green, red: swapping red and blue in the entry swaps them in the output |
| MapViz.Pm25ToBgr | map_viz.py:23-39 | a non-finite reading is grey whatever the scale arguments; a finite reading is coloured exactly when the chosen scale is not inverted; a valid colormap gives channels in `[0, 255]` |
| MapViz.Pm25Saturates | map_viz.py:34-39 | readings at or beyond the ends of a proper scale take the colormap's end colours |
| MapViz.Pm25Interpolates | map_viz.py:34-39 | a reading inside a proper scale takes the colour at its relative position in the scale |
| MapViz.Selected | map_viz.py:92-98 | a row is drawn exactly when it is of the requested year and none of its reading, latitude and longitude is blank; infinite cells are kept, as `notna` keeps them |
| MapViz.ScaleSeries | map_viz.py:99 | every value of the scale series is the finite PM2.5 reading of some row, of any year, every finite reading appears, and there are no more values than rows |
| MapViz.ScaleSeriesOfRow | map_viz.py:99 | a single row contributes its reading when it is finite, and nothing otherwise |
| MapViz.ScaleSeriesConcat | map_viz.py:99 | the series of two stretches of rows is the first stretch's followed by the second's; with the single-row case this fixes one value per row with a finite reading, in frame order, repeats included |
| MapViz.DotOf | map_viz.py:100-106 | an infinite coordinate is refused as an overflow before the colour is computed; otherwise the dot is refused exactly when its reading is finite and the scale is inverted; a dot sits at its row's pixel with the row's colour, grey for an infinite reading |
| MapViz.Dots | map_viz.py:100-106 | drawing succeeds exactly when every drawn row's dot does, and then gives one dot per drawn row, in order |
| MapViz.DotsStopAtFirstFailure | map_viz.py:100-106 | a refused drawing carries the error of the first drawn row that fails, and every row before it succeeds |
| MapViz.PlotPm25OnMap | map_viz.py:92-114 | a missing `year` column is the first key error; a plot has one dot per drawn row, and its colour bar shows the scale the dots use |
| MapViz.PlotDrawsSelectedRows | map_viz.py:92-114 | each dot is a drawn row of the frame, at that row's pixel, coloured with the colour-bar scale, and grey for an infinite reading |
| MapViz.PlotRefusedIff | map_viz.py:92-106 | with the four columns present, a plot is refused exactly when some drawn row has an infinite coordinate, or has a finite reading under an inverted scale |
| MapViz.Min3 | map_viz.py:63 | the minimum is one of the three values and no larger than any |
| MapViz.BarScale | map_viz.py:63 | the scale factor lies in `[0, 1]`, is at most 40% of the map's width over the bar's and 12% of the map's height over the bar's, and is one of the three |
| MapViz.ResizedSide | map_viz.py:64-65 | a resized side is the whole part of the side times the scale, no longer than the original side nor than its limit, and empty exactly when less than one pixel is left |
| MapViz.BarSize | map_viz.py:63-66 | the resize is refused exactly when a side of the bar scales below one pixel; each side is the whole part of the bar's side times the scale factor, at least one pixel, no larger than the original, and at most 40% of the map's width and 12% of its height |
| MapViz.SliceBound | map_viz.py:70 | a slice bound as Python reads it: kept inside the axis, negative bounds counted from the end, bounds beyond either end cut to it |
| MapViz.Slice | map_viz.py:70 | a slice always selects a span inside the axis; a slice inside the axis is taken as written, and one given by negative bounds is counted from the end |
| MapViz.Paste | map_viz.py:67-70 | the paste succeeds exactly when the bar broadcasts to the region both slices select; that region lies inside the map; with room for the bar and a non-negative padding it is the bar at its own size `padding` pixels from the bottom-right corner |
| MapViz.PlaceColourbar | map_viz.py:61-70 | a refused resize is the result; otherwise the paste region is the result, always inside the map, and a paste is refused only after a successful resize; with room for the resized bar and a non-negative padding, the region is the resized bar `padding` pixels from the bottom-right corner |
| MapViz.ColourbarRefusedOnTinyMap | map_viz.py:63-66 | on a map under 3 pixels wide or 9 pixels tall the resize, and so the embedding, is always refused |
| MapViz.PasteWrapsVertically | map_viz.py:67-70 | a padding that pushes the bar above the top edge, by less than the map's height, pastes it that much above the bottom instead |
| MapViz.ColourbarPasteEdges | map_viz.py:67-70 | a 6-pixel bar one pixel left of the edge of a 15-pixel map is refused (empty column slice); a one-pixel bar on a 9-pixel-high map with padding 10 lands on row 7 |
| MapViz.ColourbarFits | map_viz.py:63-70 | with a padding of at most 60% of the map's width and 88% of its height, a resized bar is pasted at its own size `padding` pixels from the bottom-right corner; a bar already small enough keeps its size and is never refused |

## Left out

- Plotting, logging and file I/O are left out because they produce no value the core's logic uses. This covers:
  - the matplotlib figure in `modeling.py` (beyond the shape check of the historical line);
  - the CSV write of the report;
  - `load_data`'s spreadsheet read and string cleaning;
  - every `cv2` read, write, resize and circle in `map_viz.py`;
  - `create_colorbar_image`.
- Missing or unreadable image files (the `FileNotFoundError` and `ValueError` at the top of `plot_pm25_on_map` and `embed_colorbar_to_image`) are left out because the model takes the image size as a parameter.
- Floating-point rounding is left out: every quantity is an exact real. As a result:
  - R², MAE and RMSE are stated by their defining formulas and ranges, not as bit-exact library outputs;
  - the pixel and colour-bar arithmetic ignores rounding before truncation.
- The library's R² on a constant observed series is modelled by its documented convention: 1 for an exact prediction, 0 otherwise.
- `np.nanpercentile` of an empty series is `NaN`. The model has no `NaN` among reals; the percentile is any function supplied by the caller.
- MapViz.ChosenScaleProper: assumes the percentile rises with the percentage. That is the library's behaviour, but the model cannot check it.
- Text.Lower: lower-cases the ASCII letters only, because Unicode case mapping is out of scope. Names outside ASCII compare by exact code points.
- Loader.OwnCityKept: holds for the plain-substring city filter of `Loader.CityRows`. Under the regex default of `str.contains`, a city name with regex metacharacters, such as "halle (saale)", need not match itself, so the source may drop that city's own rows.
- Loader.CityRows: matches the city as a plain substring. `str.contains` interprets its argument as a regular expression by default, so a city argument with regex metacharacters is not modelled faithfully.
- Loader.GetProcessedCountryData:
  - A blank city cell is modelled as the empty string. `astype(str)` turns it into `"nan"`, which differs only for a city argument that is a substring of `"nan"`.
  - The error message text of the country-not-found exception is not modelled.
  - Readings are blank or finite: an infinite reading, which the group-by mean would carry into its cell, is not representable. The frame comes from an Excel workbook, and a workbook cell cannot hold an infinite number.
- MapViz.PlotPm25OnMap: the colour scale is taken from the finite readings only. The source's `dropna` keeps infinite readings in the scale series, and their percentiles can be infinite or `NaN`, which a real-valued scale cannot hold. So with an infinite reading in the frame and no caller-given bounds, the model's scale is not the source's. Infinite readings are still drawn (grey), and infinite coordinates are refused.
- MapViz.RawXMonotone, MapViz.RawYAntitone and MapViz.PixelsFollowCompass: proved for the default centre and pixels-per-degree, the ones the map plot uses, not for an arbitrary geometry.
- MapViz.PlaceColourbar: requires a colour bar of positive width and height. A zero-size image would make the source divide by zero, and a readable image never has zero size. A resize to zero pixels in either direction is modelled as a refusal (`EmptyResize`), and a bar that cannot be broadcast to the region its slices select as a refusal (`ShapeMismatch`); the libraries' own error texts are not modelled. The paste follows Python's slice rules and numpy's broadcasting for a two-dimensional region only; the colour channels are not modelled, and the result is the region overwritten, not the image.
- Forecast.Predict: requires a well-formed table (`Frame.WellFormed`): distinct column names and an index without repeated years. The tables the driver receives come out of a year group-by with fixed column names.
- The exponential, logarithm and square root are function parameters with stated laws. Only those laws are used, so no fact about particular values (say `exp(1)`) is available.
- `prediction.py`, `viz.py`, `cli.py`, `tasks_1_2_3.py` and `task_4_analize_coordination_cv.py` are not part of this model. They are a superseded predictor, presentation code, or scripts that repeat the loader's filter and the pixel arithmetic.

## Findings

| source | as written | input that shows it | evidently intended | confidence | as-written member | corrected member |
|---|---|---|---|---|---|---|
| modeling.py:82 | the historical line plots `x_full`, the years of the NaN-dropped series, against `data[col].values`, every cell of the column including the missing ones; the plotting call is outside the `try`, so its length-mismatch error escapes the whole driver | a table with column `pm25` over years 2018, 2019, 2020 and cells 10.0, NaN, 12.0: the fit is accepted (two positive readings), `x_full` has 2 years and the cells are 3, so the plot is refused and no prediction is returned | plot each index year against its own cell (or the dropped series against its own years), so every accepted column is drawn and the driver returns its predictions | not executed | History.PredictAsWrittenFailsOnGaps | History.PredictAndPlot |

=== FILE: data_loader.dfy ===
/** The country/city extraction of `data_loader.py`: pick the rows of one country
    (letter case ignored), optionally narrow them to the cities whose name contains
    a given text, and average every pollutant per year. */
module Loader {
  import opened Wrappers
  import opened Seqs
  import opened Sums
  import opened Series
  import opened Frame
  import opened Text

  /** The three pollutant columns, in the order the source lists them. */
  datatype Pollutant = Pm10 | Pm25 | No2

  const Pollutants: seq<Pollutant> := [Pm10, Pm25, No2]

  function ColumnName(p: Pollutant): string
  {
    match p
    case Pm10 => "pm10_concentration"
    case Pm25 => "pm25_concentration"
    case No2 => "no2_concentration"
  }

  /** One spreadsheet row. A pollutant cell is blank (`None`) or a finite number:
      a workbook cell cannot hold an infinity. */
  datatype Record = Record(country: string, city: string, year: int, pm10: Option<real>, pm25: Option<real>, no2: Option<real>)

  function Reading(r: Record, p: Pollutant): Option<real>
  {
    match p
    case Pm10 => r.pm10
    case Pm25 => r.pm25
    case No2 => r.no2
  }

  /** The spreadsheet: the names of the columns it has, and its rows. */
  datatype Dataset = Dataset(columns: set<string>, rows: seq<Record>)

  /** A missing column (with the missing names) or an unknown country. */
  datatype LoadError = KeyError(keys: seq<string>) | CountryNotFound(country: string)

  /** Rows whose country equals `country`, letter case ignored. */
  function CountryRows(rows: seq<Record>, country: string): (c: seq<Record>)
    ensures forall r :: r in c <==> r in rows && Lower(r.country) == Lower(country)
  {
    Filter(rows, (r: Record) => Lower(r.country) == Lower(country))
  }

  /** The city argument asks for no narrowing: it is empty or "all" in any case. */
  predicate SkipsCity(city: string)
  {
    city == "" || Lower(city) == "all"
  }

  /** Rows whose city contains `city`, letter case ignored. */
  function CityRows(rows: seq<Record>, city: string): (c: seq<Record>)
    ensures |c| <= |rows|
    ensures forall r :: r in c <==> r in rows && Contains(Lower(r.city), Lower(city))
  {
    Filter(rows, (r: Record) => ContainsSearch(Lower(r.city), Lower(city)))
  }

  /** The readings of pollutant `p` present in the rows of `year`, in row order. */
  function Values(rows: seq<Record>, year: int, p: Pollutant): (v: seq<real>)
    ensures |v| <= |rows|
    ensures forall x :: x in v <==> exists i :: 0 <= i < |rows| && rows[i].year == year && Reading(rows[i], p) == Some(x)
  {
    if |rows| == 0 then []
    else
      var rest := Values(rows[1..], year, p);
      assert forall i :: 0 < i < |rows| ==> rows[i] == rows[1..][i - 1];
      if rows[0].year == year && Reading(rows[0], p).Some? then [Reading(rows[0], p).value] + rest
      else rest
  }

  /** The readings of a single row: its own reading when it is of `year`, else
      none. */
  lemma ValuesOfRow(r: Record, year: int, p: Pollutant)
    ensures Values([r], year, p) == if r.year == year && Reading(r, p).Some? then [Reading(r, p).value] else []
  {
    assert [r][1..] == [];
  }

  /** The readings of two stretches of rows are those of the first followed by
      those of the second. With `ValuesOfRow` this fixes every reading, its
      position and how often it occurs: one entry per row of the year that has
      a reading, in row order. */
  lemma {:induction false} ValuesConcat(a: seq<Record>, b: seq<Record>, year: int, p: Pollutant)
    ensures Values(a + b, year, p) == Values(a, year, p) + Values(b, year, p)
  {
    if |a| == 0 {
      assert a + b == b;
    } else {
      assert (a + b)[0] == a[0];
      assert (a + b)[1..] == a[1..] + b;
      ValuesConcat(a[1..], b, year, p);
    }
  }

  /** The group mean of `p` for `year`: missing when no row of that year has a
      reading, else the mean of the readings. */
  function Cell(rows: seq<Record>, year: int, p: Pollutant): Value
  {
    var v := Values(rows, year, p);
    if |v| == 0 then Missing else Finite(Mean(v))
  }

  /** A cell is a number exactly when some row of that year has a reading, and the
      number lies between any bounds of those readings. */
  lemma CellBetween(rows: seq<Record>, year: int, p: Pollutant, lo: real, hi: real)
    requires forall i :: 0 <= i < |rows| && rows[i].year == year && Reading(rows[i], p).Some? ==>
      lo <= Reading(rows[i], p).value <= hi
    ensures Cell(rows, year, p).Finite? <==>
      exists i :: 0 <= i < |rows| && rows[i].year == year && Reading(rows[i], p).Some?
    ensures Cell(rows, year, p).Finite? ==> lo <= Cell(rows, year, p).number <= hi
  {
    var v := Values(rows, year, p);
    if |v| > 0 {
      assert v[0] in v;
      forall k | 0 <= k < |v|
        ensures lo <= v[k] <= hi
      {
        assert v[k] in v;
      }
      MeanBetween(v, lo, hi);
    } else if exists i :: 0 <= i < |rows| && rows[i].year == year && Reading(rows[i], p).Some? {
      var i :| 0 <= i < |rows| && rows[i].year == year && Reading(rows[i], p).Some?;
      assert Reading(rows[i], p).value in v;
    }
  }

  /** A year whose readings of `p` all equal `c` averages to `c`. */
  lemma CellOfConstant(rows: seq<Record>, year: int, p: Pollutant, c: real)
    requires exists i :: 0 <= i < |rows| && rows[i].year == year && Reading(rows[i], p).Some?
    requires forall i :: 0 <= i < |rows| && rows[i].year == year && Reading(rows[i], p).Some? ==>
      Reading(rows[i], p).value == c
    ensures Cell(rows, year, p) == Finite(c)
  {
    CellBetween(rows, year, p, c, c);
  }

  /** Repeated readings each count: a year whose rows read 1, 1 and 4 averages
      to 2, not to the 2.5 of its distinct readings. */
  lemma CellCountsRepeats(country: string, city: string, year: int)
    ensures var r := (x: real) => Record(country, city, year, Some(x), None, None);
      Cell([r(1.0), r(1.0), r(4.0)], year, Pm10) == Finite(2.0)
  {
    var r := (x: real) => Record(country, city, year, Some(x), None, None);
    ValuesOfRow(r(1.0), year, Pm10);
    ValuesOfRow(r(4.0), year, Pm10);
    ValuesConcat([r(1.0)], [r(1.0)], year, Pm10);
    ValuesConcat([r(1.0), r(1.0)], [r(4.0)], year, Pm10);
    assert [r(1.0)] + [r(1.0)] == [r(1.0), r(1.0)];
    assert [r(1.0), r(1.0)] + [r(4.0)] == [r(1.0), r(1.0), r(4.0)];
    var v := Values([r(1.0), r(1.0), r(4.0)], year, Pm10);
    assert v == [1.0, 1.0, 4.0];
    assert [4.0][1..] == [] && [1.0, 4.0][1..] == [4.0] && v[1..] == [1.0, 4.0];
    assert Sum([4.0]) == 4.0;
    assert Sum([1.0, 4.0]) == 5.0;
    assert Sum(v) == 6.0;
  }

  predicate Increasing(s: seq<int>)
  {
    forall a, b :: 0 <= a < b < |s| ==> s[a] < s[b]
  }

  /** `y` added to an increasing sequence, keeping it increasing. */
  function Insert(s: seq<int>, y: int): (r: seq<int>)
    requires Increasing(s)
    ensures Increasing(r)
    ensures forall z :: z in r <==> z in s || z == y
  {
    if |s| == 0 then [y]
    else if y < s[0] then [y] + s
    else if y == s[0] then s
    else
      var rest := Insert(s[1..], y);
      assert forall z :: z in s[1..] ==> s[0] < z;
      assert s == [s[0]] + s[1..];
      PrependIncreasing(s[0], rest);
      [s[0]] + rest
  }

  lemma PrependIncreasing(h: int, rest: seq<int>)
    requires Increasing(rest)
    requires forall z :: z in rest ==> h < z
    ensures Increasing([h] + rest)
    ensures forall z :: z in [h] + rest <==> z == h || z in rest
  {
    var r := [h] + rest;
    forall a, b | 0 <= a < b < |r|
      ensures r[a] < r[b]
    {
      assert r[b] == rest[b - 1] && rest[b - 1] in rest;
      if a > 0 {
        assert r[a] == rest[a - 1];
      }
    }
  }

  /** The group keys: every year of the rows once, in ascending order. */
  function YearsOf(rows: seq<Record>): (ys: seq<int>)
    ensures Increasing(ys)
    ensures forall y :: y in ys <==> exists i :: 0 <= i < |rows| && rows[i].year == y
  {
    if |rows| == 0 then []
    else
      var rest := YearsOf(rows[1..]);
      assert forall i :: 0 < i < |rows| ==> rows[i] == rows[1..][i - 1];
      Insert(rest, rows[0].year)
  }

  /** Some pollutant has a number for `year`: the year survives `dropna(how="all")`. */
  predicate Reported(rows: seq<Record>, year: int)
  {
    exists k :: 0 <= k < |Pollutants| && Cell(rows, year, Pollutants[k]).Finite?
  }

  /** The years kept by the grouping, ascending. */
  function GroupYears(rows: seq<Record>): (ys: seq<int>)
    ensures Increasing(ys)
    ensures forall y :: y in ys <==> (exists i :: 0 <= i < |rows| && rows[i].year == y) && Reported(rows, y)
  {
    var all := YearsOf(rows);
    FilterPairwise(all, (y: int) => Reported(rows, y), (a: int, b: int) => a < b);
    Filter(all, (y: int) => Reported(rows, y))
  }

  /** Column `p` of the grouped table. */
  function GroupColumn(rows: seq<Record>, ys: seq<int>, p: Pollutant): (c: Column)
    ensures c.name == ColumnName(p)
    ensures |c.cells| == |ys|
    ensures forall i {:trigger c.cells[i]} :: 0 <= i < |ys| ==> c.cells[i] == Cell(rows, ys[i], p)
  {
    Column(ColumnName(p), seq(|ys|, i requires 0 <= i < |ys| => Cell(rows, ys[i], p)))
  }

  /** `groupby("year")[pollutants].mean().dropna(how="all")`. */
  function GroupByYear(rows: seq<Record>): Table
  {
    var ys := GroupYears(rows);
    Table(ys, seq(|Pollutants|, k requires 0 <= k < |Pollutants| => GroupColumn(rows, ys, Pollutants[k])))
  }

  /** The table with the year index and the three pollutant columns, and no row. */
  function EmptyTable(): Table
  {
    Table([], seq(|Pollutants|, k requires 0 <= k < |Pollutants| => Column(ColumnName(Pollutants[k]), [])))
  }

  /** Grouping nothing gives the empty pollutant table. */
  lemma GroupNothing()
    ensures GroupByYear([]) == EmptyTable()
    ensures IsEmpty(EmptyTable())
  {
    assert GroupYears([]) == [];
  }

  /** The grouped table is one the forecaster accepts: the three pollutant
      columns in order, an ascending index of distinct years, one cell per year. */
  lemma GroupedWellFormed(rows: seq<Record>)
    ensures WellFormed(GroupByYear(rows))
    ensures Increasing(GroupByYear(rows).index)
    ensures |GroupByYear(rows).columns| == |Pollutants|
    ensures forall k :: 0 <= k < |Pollutants| ==> GroupByYear(rows).columns[k].name == ColumnName(Pollutants[k])
  {
    var t := GroupByYear(rows);
    assert ColumnName(Pm10)[2] != ColumnName(Pm25)[2];
    assert ColumnName(Pm10)[0] != ColumnName(No2)[0];
    assert ColumnName(Pm25)[0] != ColumnName(No2)[0];
  }

  /** Some row of `year` has a reading of some pollutant. */
  predicate HasReading(rows: seq<Record>, year: int)
  {
    exists i, k :: 0 <= i < |rows| && 0 <= k < |Pollutants| && rows[i].year == year && Reading(rows[i], Pollutants[k]).Some?
  }

  /** A year survives the grouping exactly when some row of that year has a
      reading of some pollutant. */
  lemma ReportedIffReading(rows: seq<Record>, y: int)
    ensures Reported(rows, y) <==> HasReading(rows, y)
  {
    if HasReading(rows, y) {
      var i, k :| 0 <= i < |rows| && 0 <= k < |Pollutants| && rows[i].year == y && Reading(rows[i], Pollutants[k]).Some?;
      assert Reading(rows[i], Pollutants[k]).value in Values(rows, y, Pollutants[k]);
    }
    if Reported(rows, y) {
      var k :| 0 <= k < |Pollutants| && Cell(rows, y, Pollutants[k]).Finite?;
      assert Values(rows, y, Pollutants[k])[0] in Values(rows, y, Pollutants[k]);
    }
  }

  /** The grouped table has a row for `y` exactly when some row of that year has
      a reading of some pollutant, and its cells are the per-pollutant group
      means. */
  lemma GroupedRows(rows: seq<Record>, y: int)
    ensures y in GroupByYear(rows).index <==> HasReading(rows, y)
    ensures forall i, k :: 0 <= i < |GroupByYear(rows).index| && 0 <= k < |Pollutants| ==>
      GroupByYear(rows).columns[k].cells[i] == Cell(rows, GroupByYear(rows).index[i], Pollutants[k])
  {
    ReportedIffReading(rows, y);
    if HasReading(rows, y) {
      var i, k :| 0 <= i < |rows| && 0 <= k < |Pollutants| && rows[i].year == y && Reading(rows[i], Pollutants[k]).Some?;
      assert y in YearsOf(rows);
    }
  }

  /** The extraction. A frame without a `country_name` column is refused before
      anything else; no row of the country is `CountryNotFound`; a city that
      matches no row gives the empty pollutant table; otherwise the kept rows are
      grouped by year. */
  function GetProcessedCountryData(d: Dataset, country: string, city: string): (r: Result<Table, LoadError>)
    ensures "country_name" !in d.columns ==> r == Failure(KeyError(["country_name"]))
    ensures "country_name" in d.columns ==>
      (r == Failure(CountryNotFound(country)) <==> |CountryRows(d.rows, country)| == 0)
    ensures r.Success? ==> WellFormed(r.value)
  {
    if "country_name" !in d.columns then Failure(KeyError(["country_name"]))
    else
      var matched := CountryRows(d.rows, country);
      if |matched| == 0 then Failure(CountryNotFound(country))
      else if SkipsCity(city) then Grouped(d.columns, matched)
      else if "city" !in d.columns then Failure(KeyError(["city"]))
      else
        var kept := CityRows(matched, city);
        if |kept| == 0 then Success(EmptyTable())
        else Grouped(d.columns, kept)
  }

  /** The rows the extraction averages: those of the country, narrowed to the
      cities containing `city` unless the city argument asks for no narrowing.
      Narrowing only drops rows, and the row order is kept. */
  function KeptRows(rows: seq<Record>, country: string, city: string): (kept: seq<Record>)
    ensures |kept| <= |CountryRows(rows, country)| <= |rows|
    ensures forall r :: r in kept <==>
      && r in rows
      && Lower(r.country) == Lower(country)
      && (SkipsCity(city) || Contains(Lower(r.city), Lower(city)))
  {
    var matched := CountryRows(rows, country);
    if SkipsCity(city) then matched else CityRows(matched, city)
  }

  /** A successful extraction is the year grouping of the kept rows, also when a
      city matches nothing and the early return hands back the empty table. */
  lemma ExtractionGroupsKeptRows(d: Dataset, country: string, city: string)
    ensures var r := GetProcessedCountryData(d, country, city);
      r.Success? ==> r.value == GroupByYear(KeptRows(d.rows, country, city))
    ensures var r := GetProcessedCountryData(d, country, city);
      r.Success? ==> |KeptRows(d.rows, country, city)| > 0 || IsEmpty(r.value)
  {
    GroupNothing();
  }

  /** A row of the country is kept when the city argument is its own city: a
      city name contains itself whatever its letter case. */
  lemma OwnCityKept(rows: seq<Record>, country: string, i: int)
    requires 0 <= i < |rows|
    requires Lower(rows[i].country) == Lower(country)
    ensures rows[i] in KeptRows(rows, country, rows[i].city)
  {
    ContainsTrivial(Lower(rows[i].city));
  }

  /** An empty city argument and "all" in any letter case all mean the same as
      the default "all". */
  lemma CityAllIsNoFilter(d: Dataset, country: string, city: string)
    requires SkipsCity(city)
    ensures GetProcessedCountryData(d, country, city) == GetProcessedCountryData(d, country, "all")
  {
    assert Lower("all") == "all";
  }

  /** With the country present, a city that matches none of its rows yields the
      empty pollutant table, not an error. */
  lemma UnknownCityIsEmpty(d: Dataset, country: string, city: string)
    requires "country_name" in d.columns && "city" in d.columns
    requires |CountryRows(d.rows, country)| > 0
    requires !SkipsCity(city)
    requires forall i :: 0 <= i < |d.rows| && Lower(d.rows[i].country) == Lower(country) ==>
      !Contains(Lower(d.rows[i].city), Lower(city))
    ensures GetProcessedCountryData(d, country, city) == Success(EmptyTable())
  {
    var matched := CountryRows(d.rows, country);
    forall k | 0 <= k < |matched|
      ensures !ContainsSearch(Lower(matched[k].city), Lower(city))
    {
      assert matched[k] in matched;
      var i :| 0 <= i < |d.rows| && d.rows[i] == matched[k];
    }
    FilterNone(matched, (r: Record) => ContainsSearch(Lower(r.city), Lower(city)));
  }

  /** The names of the pollutant columns the frame lacks, in order. */
  function MissingPollutants(columns: set<string>): (m: seq<string>)
    ensures forall n :: n in m ==> n !in columns
    ensures forall k :: 0 <= k < |Pollutants| ==> (ColumnName(Pollutants[k]) in m <==> ColumnName(Pollutants[k]) !in columns)
  {
    var names := seq(|Pollutants|, k requires 0 <= k < |Pollutants| => ColumnName(Pollutants[k]));
    assert forall k :: 0 <= k < |Pollutants| ==> names[k] == ColumnName(Pollutants[k]) && names[k] in names;
    Filter(names, (n: string) => n !in columns)
  }

  /** The group-by step: it needs the `year` column and then the pollutant ones. */
  function Grouped(columns: set<string>, rows: seq<Record>): (r: Result<Table, LoadError>)
    ensures r.Success? <==> "year" in columns && |MissingPollutants(columns)| == 0
    ensures r.Success? ==> r.value == GroupByYear(rows) && WellFormed(r.value)
    ensures r.Failure? ==> r.error.KeyError?
  {
    GroupedWellFormed(rows);
    if "year" !in columns then Failure(KeyError(["year"]))
    else if |MissingPollutants(columns)| > 0 then Failure(KeyError(MissingPollutants(columns)))
    else Success(GroupByYear(rows))
  }
}

=== FILE: forecast.dfy ===
/** The per-column forecaster of `modeling.py` and the rows of its report: run the
    log-linear fitter on every column of a pollutant table, skip the columns it
    refuses, and keep the five summary figures of the others under the column's
    name, in column order. */
module Forecast {
  import opened Wrappers
  import opened Seqs
  import opened Series
  import opened Numerics
  import opened Frame
  import opened LogLinear

  /** The five figures kept for a column. */
  datatype Summary = Summary(predicted: real, r2Log: real, r2Original: real, mae: real, rmse: real)

  /** One entry of the result dictionary, which keeps insertion order. */
  datatype Entry = Entry(column: string, summary: Summary)

  function Summarise(f: FitResult): (m: Summary)
    ensures m.predicted == f.predicted && m.r2Log == f.r2Log && m.r2Original == f.r2Original
    ensures m.mae == f.mae && m.rmse == f.rmse
  {
    Summary(f.predicted, f.r2Log, f.r2Original, f.mae, f.rmse)
  }

  /** The year to forecast: the one asked for, or else the year after the latest
      year of the index. */
  function EffectiveTarget(t: Table, target: Option<int>): (y: int)
    requires !IsEmpty(t)
    ensures target.Some? ==> y == target.value
    ensures target.None? ==> y - 1 in t.index && forall i :: 0 <= i < |t.index| ==> t.index[i] < y
  {
    match target
    case Some(y) => y
    case None => LatestYear(t.index) + 1
  }

  /** The fitter run on column `j` with its missing cells dropped. */
  function ColumnFit(e: Elementary, t: Table, j: int, target: int): Result<FitResult, FitError>
    requires e.Valid()
    requires WellFormed(t)
    requires 0 <= j < |t.columns|
  {
    var s := ColumnSeries(t, j);
    FilterKeepsDistinctYears(s, Present);
    FitLogLinear(e, DropMissing(s), target)
  }

  /** The summary of every column the fitter accepts, and nothing for the others,
      in column order. */
  function Outcomes(e: Elementary, t: Table, target: int): (o: seq<Option<Summary>>)
    requires e.Valid()
    requires WellFormed(t)
    ensures |o| == |t.columns|
    ensures forall j {:trigger o[j]} :: 0 <= j < |t.columns| ==>
      (o[j].Some? <==> ColumnFit(e, t, j, target).Success?)
      && (o[j].Some? ==> o[j].value == Summarise(ColumnFit(e, t, j, target).value))
  {
    seq(|t.columns|, j requires 0 <= j < |t.columns| =>
      var r := ColumnFit(e, t, j, target);
      if r.Success? then Some(Summarise(r.value)) else None)
  }

  function Names(t: Table): (names: seq<string>)
    ensures |names| == |t.columns|
    ensures forall j {:trigger names[j]} :: 0 <= j < |t.columns| ==> names[j] == t.columns[j].name
  {
    seq(|t.columns|, j requires 0 <= j < |t.columns| => t.columns[j].name)
  }

  /** The entries of the first `n` columns, given each column's name and outcome. */
  function Collect(names: seq<string>, outcomes: seq<Option<Summary>>, n: nat): (r: seq<Entry>)
    requires |names| == |outcomes|
    requires n <= |names|
    ensures |r| <= n
  {
    if n == 0 then []
    else
      var prefix := Collect(names, outcomes, n - 1);
      match outcomes[n - 1]
      case Some(m) => prefix + [Entry(names[n - 1], m)]
      case None => prefix
  }

  /** The positions, among the first `n`, of the columns that have a summary. */
  function Origins(outcomes: seq<Option<Summary>>, n: nat): (o: seq<int>)
    requires n <= |outcomes|
    ensures forall k :: 0 <= k < |o| ==> 0 <= o[k] < n && outcomes[o[k]].Some?
    ensures forall k1, k2 :: 0 <= k1 < k2 < |o| ==> o[k1] < o[k2]
    ensures forall j :: 0 <= j < n ==> (outcomes[j].Some? <==> j in o)
  {
    if n == 0 then []
    else
      var prefix := Origins(outcomes, n - 1);
      if outcomes[n - 1].Some? then prefix + [n - 1] else prefix
  }

  /** Entry `k` of the collection is the name and summary of the `k`-th column
      that has a summary. */
  lemma {:induction false} CollectFromOrigins(names: seq<string>, outcomes: seq<Option<Summary>>, n: nat)
    requires |names| == |outcomes|
    requires n <= |names|
    ensures |Collect(names, outcomes, n)| == |Origins(outcomes, n)|
    ensures forall k :: 0 <= k < |Collect(names, outcomes, n)| ==>
      Collect(names, outcomes, n)[k] == Entry(names[Origins(outcomes, n)[k]], outcomes[Origins(outcomes, n)[k]].value)
  {
    if n > 0 {
      CollectFromOrigins(names, outcomes, n - 1);
    }
  }

  /** The forecaster: nothing for an empty table; otherwise one entry per column
      the fitter accepts, at the effective target year. */
  function Predict(e: Elementary, t: Table, target: Option<int>): (r: seq<Entry>)
    requires e.Valid()
    requires WellFormed(t)
    ensures IsEmpty(t) ==> r == []
    ensures !IsEmpty(t) ==> |r| <= |t.columns|
  {
    if IsEmpty(t) then []
    else
      var y := EffectiveTarget(t, target);
      Collect(Names(t), Outcomes(e, t, y), |t.columns|)
  }

  /** The result of a non-empty table: entry `k` carries the name and fit summary
      of the `k`-th column the fitter accepts, so entries follow column order,
      every accepted column has an entry and no refused column has one. */
  lemma PredictEntries(e: Elementary, t: Table, target: Option<int>)
    requires e.Valid()
    requires WellFormed(t)
    requires !IsEmpty(t)
    ensures var y := EffectiveTarget(t, target);
      var o := Origins(Outcomes(e, t, y), |t.columns|);
      && |Predict(e, t, target)| == |o|
      && (forall k :: 0 <= k < |o| ==>
            && ColumnFit(e, t, o[k], y).Success?
            && Predict(e, t, target)[k] == Entry(t.columns[o[k]].name, Summarise(ColumnFit(e, t, o[k], y).value)))
      && (forall j :: 0 <= j < |t.columns| ==> (ColumnFit(e, t, j, y).Success? <==> j in o))
  {
    var y := EffectiveTarget(t, target);
    var names, outcomes := Names(t), Outcomes(e, t, y);
    CollectFromOrigins(names, outcomes, |t.columns|);
  }

  /** One row of the report file. */
  datatype ReportRow = ReportRow(pollutant: string, predicted: real, r2Log: real, r2Original: real, mae: real, rmse: real)

  function Row(x: Entry): ReportRow
  {
    ReportRow(x.column, x.summary.predicted, x.summary.r2Log, x.summary.r2Original, x.summary.mae, x.summary.rmse)
  }

  /** The report: one row per entry, in the result's order. */
  function Report(entries: seq<Entry>): (rows: seq<ReportRow>)
    ensures |rows| == |entries|
    ensures forall k :: 0 <= k < |entries| ==> rows[k].pollutant == entries[k].column
  {
    seq(|entries|, k requires 0 <= k < |entries| => Row(entries[k]))
  }

  /** Reading the report back. */
  function ReadReport(rows: seq<ReportRow>): (entries: seq<Entry>)
    ensures |entries| == |rows|
  {
    seq(|rows|, k requires 0 <= k < |rows| =>
      Entry(rows[k].pollutant, Summary(rows[k].predicted, rows[k].r2Log, rows[k].r2Original, rows[k].mae, rows[k].rmse)))
  }

  /** The report loses nothing: reading it back gives the forecaster's result. */
  lemma ReportRoundTrip(entries: seq<Entry>)
    ensures ReadReport(Report(entries)) == entries
  {
    var back := ReadReport(Report(entries));
    forall k | 0 <= k < |entries|
      ensures back[k] == entries[k]
    {
    }
  }
}

=== FILE: frame.dfy ===
/** A pollutant table as the loader hands it to the forecaster: an index of years
    and named columns of cells, one cell per index entry. */
module Frame {
  import opened Seqs
  import opened Series

  datatype Column = Column(name: string, cells: seq<Value>)

  datatype Table = Table(index: seq<int>, columns: seq<Column>)

  /** Every column has one cell per index year, the index repeats no year (it
      comes out of a group-by), and no two columns share a name. */
  predicate WellFormed(t: Table)
  {
    && (forall j :: 0 <= j < |t.columns| ==> |t.columns[j].cells| == |t.index|)
    && (forall a, b :: 0 <= a < b < |t.index| ==> t.index[a] != t.index[b])
    && (forall a, b :: 0 <= a < b < |t.columns| ==> t.columns[a].name != t.columns[b].name)
  }

  /** A frame is empty when it has no rows or no columns. */
  predicate IsEmpty(t: Table)
  {
    |t.index| == 0 || |t.columns| == 0
  }

  /** Column `j` as a year-indexed series. */
  function ColumnSeries(t: Table, j: int): (s: seq<Observation>)
    requires WellFormed(t)
    requires 0 <= j < |t.columns|
    ensures Years(s) == t.index
    ensures DistinctYears(s)
    ensures forall i {:trigger s[i]} :: 0 <= i < |s| ==> s[i].value == t.columns[j].cells[i]
  {
    var s := seq(|t.index|, i requires 0 <= i < |t.index| => Observation(t.index[i], t.columns[j].cells[i]));
    assert Years(s) == t.index;
    s
  }

  /** The latest year of a non-empty index. */
  function LatestYear(index: seq<int>): (m: int)
    requires |index| > 0
    ensures m in index
    ensures forall i :: 0 <= i < |index| ==> index[i] <= m
  {
    if |index| == 1 then index[0]
    else
      var rest := LatestYear(index[1..]);
      if index[0] >= rest then index[0] else rest
  }
}

=== FILE: history.dfy ===
/** The data the forecaster plots for each accepted column: the historical line,
    the fitted curve and the predicted marker. The historical line as the source
    draws it pairs the fitted series' years (missing cells dropped) with all of the
    column's cells (missing ones included); the plotting library refuses two
    sequences of different lengths, and the error escapes the forecaster. */
module History {
  import opened Wrappers
  import opened Seqs
  import opened Series
  import opened Numerics
  import opened Frame
  import opened LogLinear
  import opened Forecast

  datatype Point = Point(x: int, y: real)

  /** The plotting library's refusal: x and y of different lengths. */
  datatype PlotError = ShapeMismatch(column: string, xs: nat, ys: nat)

  /** The historical line as written: `x_full` against every cell of the column. */
  function HistoryLineAsWritten(column: string, xFull: seq<int>, cells: seq<Value>): (r: Result<seq<Observation>, PlotError>)
    ensures r.Success? <==> |xFull| == |cells|
    ensures r.Success? ==> Years(r.value) == xFull && |r.value| == |cells|
    ensures r.Failure? ==> r.error == ShapeMismatch(column, |xFull|, |cells|)
  {
    if |xFull| != |cells| then Failure(ShapeMismatch(column, |xFull|, |cells|))
    else Success(seq(|cells|, i requires 0 <= i < |cells| => Observation(xFull[i], cells[i])))
  }

  predicate HasGap(cells: seq<Value>)
  {
    exists i :: 0 <= i < |cells| && cells[i].Missing?
  }

  /** Dropping the missing cells of a column shortens it exactly when it has a
      missing cell. */
  lemma DropShortensIffGap(t: Table, j: int)
    requires WellFormed(t)
    requires 0 <= j < |t.columns|
    ensures |DropMissing(ColumnSeries(t, j))| != |t.columns[j].cells| <==> HasGap(t.columns[j].cells)
  {
    var s := ColumnSeries(t, j);
    FilterKeepsAll(s, Present);
    if HasGap(t.columns[j].cells) {
      var i :| 0 <= i < |t.columns[j].cells| && t.columns[j].cells[i].Missing?;
      assert !Present(s[i]);
    }
  }

  /** For a column the fitter accepted, the historical line as written is refused
      exactly when the column has a missing cell. */
  lemma AsWrittenRefusedIffGap(e: Elementary, t: Table, j: int, target: int)
    requires e.Valid()
    requires WellFormed(t)
    requires 0 <= j < |t.columns|
    ensures var f := ColumnFit(e, t, j, target);
      f.Success? ==> (HistoryLineAsWritten(t.columns[j].name, f.value.xFull, t.columns[j].cells).Failure? <==> HasGap(t.columns[j].cells))
  {
    if ColumnFit(e, t, j, target).Success? {
      var kept := DropMissing(ColumnSeries(t, j));
      assert |ColumnFit(e, t, j, target).value.xFull| == |kept| by {
        FilterKeepsDistinctYears(ColumnSeries(t, j), Present);
        assert ColumnFit(e, t, j, target) == FitLogLinear(e, kept, target);
      }
      DropShortensIffGap(t, j);
    }
  }

  /** For every column: the fitter accepted it and its historical line as written
      is refused. */
  function Refusals(e: Elementary, t: Table, target: int): (r: seq<bool>)
    requires e.Valid()
    requires WellFormed(t)
    ensures |r| == |t.columns|
    ensures forall j {:trigger r[j]} :: 0 <= j < |t.columns| ==>
      (r[j] <==> ColumnFit(e, t, j, target).Success?
                 && HistoryLineAsWritten(t.columns[j].name, ColumnFit(e, t, j, target).value.xFull, t.columns[j].cells).Failure?)
  {
    seq(|t.columns|, j requires 0 <= j < |t.columns| =>
      var f := ColumnFit(e, t, j, target);
      f.Success? && HistoryLineAsWritten(t.columns[j].name, f.value.xFull, t.columns[j].cells).Failure?)
  }

  /** The loop as written over the first `n` columns: a column without a summary
      is skipped, and an accepted column whose plot is refused ends the run. */
  function CollectAsWritten(names: seq<string>, outcomes: seq<Option<Summary>>, refused: seq<bool>, n: nat): (r: Result<seq<Entry>, string>)
    requires |names| == |outcomes| == |refused|
    requires n <= |names|
  {
    if n == 0 then Success([])
    else
      var prefix := CollectAsWritten(names, outcomes, refused, n - 1);
      if prefix.Failure? then prefix
      else
        match outcomes[n - 1]
        case None => prefix
        case Some(m) =>
          if refused[n - 1] then Failure(names[n - 1])
          else Success(prefix.value + [Entry(names[n - 1], m)])
  }

  /** The loop as written fails exactly when some accepted column's plot is
      refused, and otherwise collects what `Forecast.Collect` collects. */
  lemma {:induction false} CollectAsWrittenSpec(names: seq<string>, outcomes: seq<Option<Summary>>, refused: seq<bool>, n: nat)
    requires |names| == |outcomes| == |refused|
    requires n <= |names|
    ensures CollectAsWritten(names, outcomes, refused, n).Failure?
        <==> exists j :: 0 <= j < n && outcomes[j].Some? && refused[j]
    ensures CollectAsWritten(names, outcomes, refused, n).Success? ==>
      CollectAsWritten(names, outcomes, refused, n).value == Collect(names, outcomes, n)
  {
    if n > 0 {
      CollectAsWrittenSpec(names, outcomes, refused, n - 1);
    }
  }

  /** The forecaster as written: the plotting error of the first accepted column
      with a refused historical line escapes. */
  function PredictAsWritten(e: Elementary, t: Table, target: Option<int>): Result<seq<Entry>, string>
    requires e.Valid()
    requires WellFormed(t)
  {
    if IsEmpty(t) then Success([])
    else
      var y := EffectiveTarget(t, target);
      CollectAsWritten(Names(t), Outcomes(e, t, y), Refusals(e, t, y), |t.columns|)
  }

  /** A non-empty table with an accepted column that has a missing cell makes the
      forecaster as written fail; without one, it returns the same result as
      `Forecast.Predict`. */
  lemma PredictAsWrittenFailsOnGaps(e: Elementary, t: Table, target: Option<int>)
    requires e.Valid()
    requires WellFormed(t)
    requires !IsEmpty(t)
    ensures var y := EffectiveTarget(t, target);
      PredictAsWritten(e, t, target).Failure? <==>
        exists j :: 0 <= j < |t.columns| && ColumnFit(e, t, j, y).Success? && HasGap(t.columns[j].cells)
    ensures PredictAsWritten(e, t, target).Success? ==> PredictAsWritten(e, t, target).value == Predict(e, t, target)
  {
    var y := EffectiveTarget(t, target);
    var outcomes, refused := Outcomes(e, t, y), Refusals(e, t, y);
    CollectAsWrittenSpec(Names(t), outcomes, refused, |t.columns|);
    forall j | 0 <= j < |t.columns|
      ensures outcomes[j].Some? && refused[j] <==> ColumnFit(e, t, j, y).Success? && HasGap(t.columns[j].cells)
    {
      if ColumnFit(e, t, j, y).Success? {
        AsWrittenRefusedIffGap(e, t, j, y);
      }
    }
  }

  /** The historical line as intended: each index year with its own cell, so x and
      y always have the same length. */
  function HistoryLine(t: Table, j: int): (h: seq<Observation>)
    requires WellFormed(t)
    requires 0 <= j < |t.columns|
    ensures |h| == |t.index| == |t.columns[j].cells|
    ensures Years(h) == t.index
    ensures forall i :: 0 <= i < |h| ==> h[i].value == t.columns[j].cells[i]
  {
    ColumnSeries(t, j)
  }

  /** What is drawn for an accepted column. */
  datatype Chart = Chart(column: string, history: seq<Observation>, fit: seq<Point>, marker: Point)

  /** The fitted curve as points over `x_full`. */
  function FitPoints(f: FitResult): (p: seq<Point>)
    requires |f.xFull| == |f.curve|
    ensures |p| == |f.curve|
    ensures forall i :: 0 <= i < |p| ==> p[i] == Point(f.xFull[i], f.curve[i])
    ensures (forall i :: 0 <= i < |f.curve| ==> f.curve[i] > 0.0) ==> forall i :: 0 <= i < |p| ==> p[i].y > 0.0
  {
    seq(|f.curve|, i requires 0 <= i < |f.curve| => Point(f.xFull[i], f.curve[i]))
  }

  /** An accepted column's fit has one curve point per kept reading, all
      positive. */
  lemma FitShape(e: Elementary, t: Table, j: int, target: int)
    requires e.Valid()
    requires WellFormed(t)
    requires 0 <= j < |t.columns|
    ensures ColumnFit(e, t, j, target).Success? ==>
      var f := ColumnFit(e, t, j, target).value;
      && |f.xFull| == |f.curve| == |DropMissing(ColumnSeries(t, j))|
      && forall i :: 0 <= i < |f.curve| ==> f.curve[i] > 0.0
  {
    var kept := DropMissing(ColumnSeries(t, j));
    FilterKeepsDistinctYears(ColumnSeries(t, j), Present);
    assert ColumnFit(e, t, j, target) == FitLogLinear(e, kept, target);
  }

  /** The chart of an accepted column, with the intended historical line. */
  function ChartOf(e: Elementary, t: Table, j: int, target: int): (c: Chart)
    requires e.Valid()
    requires WellFormed(t)
    requires 0 <= j < |t.columns|
    requires ColumnFit(e, t, j, target).Success?
    ensures c.column == t.columns[j].name
    ensures |c.history| == |t.index|
    ensures |c.fit| == |DropMissing(ColumnSeries(t, j))|
    ensures forall i :: 0 <= i < |c.fit| ==> c.fit[i].y > 0.0
    ensures c.marker == Point(target, ColumnFit(e, t, j, target).value.predicted)
  {
    var f := ColumnFit(e, t, j, target).value;
    FitShape(e, t, j, target);
    Chart(t.columns[j].name, HistoryLine(t, j), FitPoints(f), Point(target, f.predicted))
  }

  /** The charts of the columns at positions `o`, in that order. */
  function Charts(e: Elementary, t: Table, o: seq<int>, target: int): (c: seq<Chart>)
    requires e.Valid()
    requires WellFormed(t)
    requires forall k :: 0 <= k < |o| ==> 0 <= o[k] < |t.columns| && ColumnFit(e, t, o[k], target).Success?
    ensures |c| == |o|
    ensures forall k :: 0 <= k < |o| ==> c[k] == ChartOf(e, t, o[k], target)
  {
    seq(|o|, k requires 0 <= k < |o| => ChartOf(e, t, o[k], target))
  }

  /** The forecaster with the intended plotting: it always returns the forecast,
      together with one chart per entry, in the same order. */
  function PredictAndPlot(e: Elementary, t: Table, target: Option<int>): (r: (seq<Entry>, seq<Chart>))
    requires e.Valid()
    requires WellFormed(t)
    ensures r.0 == Predict(e, t, target)
    ensures !IsEmpty(t) ==> |r.1| == |r.0|
    ensures !IsEmpty(t) ==> forall k :: 0 <= k < |r.1| ==> r.1[k].column == r.0[k].column
  {
    if IsEmpty(t) then ([], [])
    else
      var y := EffectiveTarget(t, target);
      var o := Origins(Outcomes(e, t, y), |t.columns|);
      PredictEntries(e, t, target);
      (Predict(e, t, target), Charts(e, t, o, y))
  }
}

=== FILE: least_squares.dfy ===
/** Ordinary least squares for one explanatory variable, in closed form, together
    with the facts that make the closed form the least-squares line: it solves the
    normal equations, it is their only solution, and no other line has a smaller
    sum of squared residuals. */
module LeastSquares {
  import opened Sums

  /** The line `y = slope * x + intercept`. */
  datatype Line = Line(slope: real, intercept: real) {
    function At(x: real): real
    {
      slope * x + intercept
    }
  }

  predicate Distinct(xs: seq<real>)
  {
    forall i, j :: 0 <= i < j < |xs| ==> xs[i] != xs[j]
  }

  /** At least two points, no two of them at the same abscissa. */
  predicate Fittable(xs: seq<real>, ys: seq<real>)
  {
    |xs| == |ys| && |xs| >= 2 && Distinct(xs)
  }

  /** Sum of squared deviations of `xs` from their mean. */
  function Sxx(xs: seq<real>): real
    requires |xs| > 0
  {
    Dot(Deviations(xs), Deviations(xs))
  }

  /** Sum of products of the deviations of `xs` and `ys` from their means. */
  function Sxy(xs: seq<real>, ys: seq<real>): real
    requires |xs| == |ys| > 0
  {
    Dot(Deviations(xs), Deviations(ys))
  }

  /** Two distinct abscissae cannot both sit at the mean. */
  lemma SpreadPositive(xs: seq<real>)
    requires |xs| >= 2 && Distinct(xs)
    ensures Sxx(xs) > 0.0
  {
    var d := Deviations(xs);
    if d[0] != 0.0 {
      DotSelfPositive(d, 0);
    } else {
      assert xs[0] != xs[1];
      DotSelfPositive(d, 1);
    }
  }

  /** The closed form: slope `Sxy / Sxx`, and the line passes through the centroid. */
  function Fit(xs: seq<real>, ys: seq<real>): (l: Line)
    requires Fittable(xs, ys)
    ensures l.slope * Sxx(xs) == Sxy(xs, ys)
    ensures l.At(Mean(xs)) == Mean(ys)
  {
    SpreadPositive(xs);
    var slope := Sxy(xs, ys) / Sxx(xs);
    Line(slope, Mean(ys) - slope * Mean(xs))
  }

  /** The line's value at every abscissa. */
  function Predictions(xs: seq<real>, l: Line): (p: seq<real>)
    ensures |p| == |xs|
    ensures forall i {:trigger p[i]} :: 0 <= i < |xs| ==> p[i] == l.At(xs[i])
  {
    Affine(xs, l.slope, l.intercept)
  }

  /** Observed minus predicted, point by point. */
  function Residuals(xs: seq<real>, ys: seq<real>, l: Line): (r: seq<real>)
    requires |xs| == |ys|
    ensures |r| == |xs|
    ensures forall i {:trigger r[i]} :: 0 <= i < |xs| ==> r[i] == ys[i] - l.At(xs[i])
  {
    Differences(ys, Predictions(xs, l))
  }

  function SquaredError(xs: seq<real>, ys: seq<real>, l: Line): real
    requires |xs| == |ys|
  {
    var r := Residuals(xs, ys, l);
    Dot(r, r)
  }

  /** The normal equations of least squares: the residuals sum to zero and are
      orthogonal to the abscissae. */
  ghost predicate SolvesNormalEquations(xs: seq<real>, ys: seq<real>, l: Line)
    requires |xs| == |ys|
  {
    var r := Residuals(xs, ys, l);
    Sum(r) == 0.0 && Dot(xs, r) == 0.0
  }

  /** Through the centroid, each residual is the deviation of `y` minus `slope`
      times the deviation of `x`. */
  lemma CentredForm(xs: seq<real>, ys: seq<real>, l: Line)
    requires |xs| == |ys| > 0
    requires l.At(Mean(xs)) == Mean(ys)
    ensures Residuals(xs, ys, l) == Combination(Deviations(ys), Deviations(xs), l.slope)
  {
    var r, c := Residuals(xs, ys, l), Combination(Deviations(ys), Deviations(xs), l.slope);
    var dx, dy := Deviations(xs), Deviations(ys);
    forall i | 0 <= i < |xs|
      ensures r[i] == c[i]
    {
      CentredStep(ys[i], xs[i], dy[i], dx[i], l, Mean(xs), Mean(ys));
    }
  }

  /** One residual of a line through `(mx, my)`, rewritten with deviations. */
  lemma CentredStep(y: real, x: real, dy: real, dx: real, l: Line, mx: real, my: real)
    requires dy == y - my && dx == x - mx
    requires l.At(mx) == my
    ensures y - l.At(x) == dy - l.slope * dx
  {
    assert l.slope * dx == l.slope * x - l.slope * mx;
  }

  /** For a line through the centroid, the residuals sum to zero. */
  lemma CentredResidualSum(xs: seq<real>, ys: seq<real>, l: Line)
    requires |xs| == |ys| > 0
    requires l.At(Mean(xs)) == Mean(ys)
    ensures Sum(Residuals(xs, ys, l)) == 0.0
  {
    CentredForm(xs, ys, l);
    DeviationsSumToZero(xs);
    DeviationsSumToZero(ys);
    SumCombination(Deviations(ys), Deviations(xs), l.slope);
    TimesZero(l.slope, Sum(Deviations(xs)));
  }

  /** Against the deviations of `x`, the residuals of a line through the centroid
      leave `Sxy - slope * Sxx`. */
  lemma DeviationDotResiduals(xs: seq<real>, ys: seq<real>, l: Line)
    requires |xs| == |ys| > 0
    requires l.At(Mean(xs)) == Mean(ys)
    ensures Dot(Deviations(xs), Residuals(xs, ys, l)) == Sxy(xs, ys) - l.slope * Sxx(xs)
  {
    DeviationDotCentred(xs, ys, l);
    MulCongruence(l.slope, Sxx(xs), Dot(Deviations(xs), Deviations(xs)));
  }

  lemma MulCongruence(m: real, a: real, b: real)
    requires a == b
    ensures m * a == m * b
  {
  }

  lemma DeviationDotCentred(xs: seq<real>, ys: seq<real>, l: Line)
    requires |xs| == |ys| > 0
    requires l.At(Mean(xs)) == Mean(ys)
    ensures Dot(Deviations(xs), Residuals(xs, ys, l))
         == Dot(Deviations(xs), Deviations(ys)) - l.slope * Dot(Deviations(xs), Deviations(xs))
  {
    CentredForm(xs, ys, l);
    DotCombination(Deviations(xs), Deviations(ys), Deviations(xs), l.slope);
  }

  /** For a line through the centroid, the orthogonality condition reduces to
      `Sxy == slope * Sxx`. */
  lemma CentredResidualDot(xs: seq<real>, ys: seq<real>, l: Line)
    requires |xs| == |ys| > 0
    requires l.At(Mean(xs)) == Mean(ys)
    ensures Dot(xs, Residuals(xs, ys, l)) == Sxy(xs, ys) - l.slope * Sxx(xs)
  {
    var r := Residuals(xs, ys, l);
    DeviationDotResiduals(xs, ys, l);
    CentredResidualSum(xs, ys, l);
    DotShiftBalanced(xs, r, Mean(xs));
  }

  lemma FitSolvesNormalEquations(xs: seq<real>, ys: seq<real>)
    requires Fittable(xs, ys)
    ensures SolvesNormalEquations(xs, ys, Fit(xs, ys))
  {
    var l := Fit(xs, ys);
    CentredResidualSum(xs, ys, l);
    CentredResidualDot(xs, ys, l);
    BalancedDifference(Dot(xs, Residuals(xs, ys, l)), Sxy(xs, ys), l.slope, Sxx(xs));
  }

  lemma BalancedDifference(d: real, a: real, m: real, b: real)
    requires d == a - m * b && m * b == a
    ensures d == 0.0
  {
  }

  /** Residuals of any line: `y - slope*x`, shifted by the intercept. */
  lemma ResidualsAsShift(xs: seq<real>, ys: seq<real>, l: Line)
    requires |xs| == |ys|
    ensures Residuals(xs, ys, l) == Shift(Combination(ys, xs, l.slope), l.intercept)
  {
    var r, t := Residuals(xs, ys, l), Shift(Combination(ys, xs, l.slope), l.intercept);
    forall i | 0 <= i < |xs|
      ensures r[i] == t[i]
    {
    }
  }

  /** Dividing `sy == s * sx + n * c` by `n`: the line `s, c` passes through
      `(sx / n, sy / n)`. */
  lemma MeanOfAffine(sy: real, sx: real, n: real, s: real, c: real, l: Line, nx: real, ny: real)
    requires n > 0.0 && nx == n && ny == n
    requires sy - s * sx - n * c == 0.0
    requires l == Line(s, c)
    ensures l.At(sx / nx) == sy / ny
  {
    assert sy == s * sx + n * c;
    assert sy / n == (s * sx) / n + (n * c) / n;
  }

  /** A zero residual sum puts the line through the centroid. */
  lemma ZeroResidualSumCentres(xs: seq<real>, ys: seq<real>, l: Line)
    requires |xs| == |ys| > 0
    requires Sum(Residuals(xs, ys, l)) == 0.0
    ensures l.At(Mean(xs)) == Mean(ys)
  {
    ResidualsAsShift(xs, ys, l);
    SumShift(Combination(ys, xs, l.slope), l.intercept);
    SumCombination(ys, xs, l.slope);
    MeanOfAffine(Sum(ys), Sum(xs), |Combination(ys, xs, l.slope)| as real, l.slope, l.intercept, l, |xs| as real, |ys| as real);
  }

  /** `d == sxy - s*sxx` vanishes and `s'*sxx == sxy` with `sxx > 0`: the slopes agree. */
  lemma SameSlope(d: real, sxy: real, sxx: real, s: real, s': real)
    requires d == sxy - s * sxx && d == 0.0
    requires s' * sxx == sxy && sxx > 0.0
    ensures s == s'
  {
    assert (s - s') * sxx == 0.0;
  }

  lemma SameIntercept(s: real, c: real, s': real, c': real, mx: real, my: real)
    requires s * mx + c == my
    requires s == s'
    requires s' * mx + c' == my
    ensures c == c'
  {
  }

  /** A line solving the normal equations has the closed-form slope. */
  lemma NormalSlope(xs: seq<real>, ys: seq<real>, l: Line)
    requires Fittable(xs, ys)
    requires SolvesNormalEquations(xs, ys, l)
    ensures l.slope == Fit(xs, ys).slope
  {
    ZeroResidualSumCentres(xs, ys, l);
    CentredResidualDot(xs, ys, l);
    SpreadPositive(xs);
    SameSlope(Dot(xs, Residuals(xs, ys, l)), Sxy(xs, ys), Sxx(xs), l.slope, Fit(xs, ys).slope);
  }

  /** The normal equations have exactly one solution, the closed form. */
  lemma NormalEquationsDetermineFit(xs: seq<real>, ys: seq<real>, l: Line)
    requires Fittable(xs, ys)
    requires SolvesNormalEquations(xs, ys, l)
    ensures l == Fit(xs, ys)
  {
    ZeroResidualSumCentres(xs, ys, l);
    NormalSlope(xs, ys, l);
    var f := Fit(xs, ys);
    SameIntercept(l.slope, l.intercept, f.slope, f.intercept, Mean(xs), Mean(ys));
  }

  /** Moving every residual by `w` adds `Dot(w, w)` to the squared error once
      the residuals are orthogonal to `w`. */
  lemma PerturbedError(r: seq<real>, w: seq<real>)
    requires |r| == |w|
    requires Dot(r, w) == 0.0
    ensures Dot(Differences(r, w), Differences(r, w)) == Dot(r, r) + Dot(w, w)
  {
    var d := Differences(r, w);
    DotDifferences(d, r, w);
    DotSymmetric(d, r);
    DotDifferences(r, r, w);
    DotSymmetric(d, w);
    DotDifferences(w, r, w);
    DotSymmetric(w, r);
  }

  /** Residuals solving the normal equations are orthogonal to the values of any line. */
  lemma CrossTermVanishes(xs: seq<real>, r: seq<real>, l: Line)
    requires |xs| == |r|
    requires Sum(r) == 0.0 && Dot(xs, r) == 0.0
    ensures Dot(r, Predictions(xs, l)) == 0.0
  {
    DotAffine(xs, r, l.slope, l.intercept);
    DotSymmetric(r, Predictions(xs, l));
    TimesZero(l.slope, Dot(xs, r));
    TimesZero(l.intercept, Sum(r));
  }

  /** The residuals of one line are those of another minus the values of their difference. */
  lemma ResidualsOfOther(xs: seq<real>, ys: seq<real>, f: Line, g: Line)
    requires |xs| == |ys|
    ensures Residuals(xs, ys, g) ==
      Differences(Residuals(xs, ys, f), Predictions(xs, Line(g.slope - f.slope, g.intercept - f.intercept)))
  {
    var a := Residuals(xs, ys, g);
    var w := Predictions(xs, Line(g.slope - f.slope, g.intercept - f.intercept));
    var b := Differences(Residuals(xs, ys, f), w);
    forall i | 0 <= i < |xs|
      ensures a[i] == b[i]
    {
      assert (g.slope - f.slope) * xs[i] == g.slope * xs[i] - f.slope * xs[i];
    }
  }

  /** Least squares: no line has a smaller sum of squared residuals than the fit. */
  lemma FitMinimisesSquaredError(xs: seq<real>, ys: seq<real>, other: Line)
    requires Fittable(xs, ys)
    ensures SquaredError(xs, ys, Fit(xs, ys)) <= SquaredError(xs, ys, other)
  {
    var f := Fit(xs, ys);
    FitSolvesNormalEquations(xs, ys);
    var r := Residuals(xs, ys, f);
    var d := Line(other.slope - f.slope, other.intercept - f.intercept);
    ResidualsOfOther(xs, ys, f, other);
    CrossTermVanishes(xs, r, d);
    PerturbedError(r, Predictions(xs, d));
    DotSelfNonnegative(Predictions(xs, d));
  }

  /** Points lying exactly on a line are fitted by that line. */
  lemma FitRecoversExactLine(xs: seq<real>, ys: seq<real>, l: Line)
    requires Fittable(xs, ys)
    requires forall i :: 0 <= i < |xs| ==> ys[i] == l.At(xs[i])
    ensures Fit(xs, ys) == l
  {
    var r := Residuals(xs, ys, l);
    SumBetween(r, 0.0, 0.0);
    DotWithZeros(xs, r);
    NormalEquationsDetermineFit(xs, ys, l);
  }

  /** The fit does at least as well as the horizontal line at the mean, whose
      squared error is the total sum of squares. */
  lemma FitBeatsMean(xs: seq<real>, ys: seq<real>)
    requires Fittable(xs, ys)
    ensures 0.0 <= SquaredError(xs, ys, Fit(xs, ys)) <= Dot(Deviations(ys), Deviations(ys))
  {
    var flat := Line(0.0, Mean(ys));
    FitMinimisesSquaredError(xs, ys, flat);
    assert Residuals(xs, ys, flat) == Deviations(ys);
    var r := Residuals(xs, ys, Fit(xs, ys));
    DotSelfNonnegative(r);
  }
}

=== FILE: log_linear.dfy ===
/** The log-linear trend fitter of `modeling.py`: keep the finite, positive readings,
    fit a least-squares line to (year - earliest training year, ln reading), and
    read the exponential of that line back at every input year and at the target
    year, together with the fit's diagnostics. */
module LogLinear {
  import opened Wrappers
  import opened Seqs
  import opened Series
  import opened Sums
  import opened LeastSquares
  import opened Numerics
  import opened Metrics

  /** The only way the fitter refuses a series: fewer than two readings it can
      take the logarithm of. */
  datatype FitError = NotEnoughPositive

  /** Everything the fitter returns for one series. */
  datatype FitResult = FitResult(
    predicted: real,
    r2Log: real,
    r2Original: real,
    mae: real,
    rmse: real,
    curve: seq<real>,
    predictedLog: real,
    xFull: seq<int>,
    xOffset: int)

  /** The readings the line is fitted to, in input order. */
  function TrainingSet(s: seq<Observation>): (t: seq<Observation>)
    ensures |t| <= |s|
    ensures forall o :: o in t <==> o in s && o.value.Finite? && o.value.number > 0.0
    ensures forall i :: 0 <= i < |t| ==> Trainable(t[i])
  {
    Filter(s, Trainable)
  }

  /** The smallest year of a non-empty series. */
  function EarliestYear(t: seq<Observation>): (m: int)
    requires |t| > 0
    ensures exists i :: 0 <= i < |t| && t[i].year == m
    ensures forall i :: 0 <= i < |t| ==> m <= t[i].year
  {
    if |t| == 1 then t[0].year
    else
      var rest := EarliestYear(t[1..]);
      if t[0].year <= rest then t[0].year else rest
  }

  /** Each year measured from `offset`, as the regression's abscissa. */
  function Centred(t: seq<Observation>, offset: int): (xs: seq<real>)
    ensures |xs| == |t|
    ensures forall i {:trigger xs[i]} :: 0 <= i < |t| ==> xs[i] == (t[i].year - offset) as real
  {
    seq(|t|, i requires 0 <= i < |t| => (t[i].year - offset) as real)
  }

  /** The readings themselves. */
  function Readings(t: seq<Observation>): (ys: seq<real>)
    requires forall i :: 0 <= i < |t| ==> Trainable(t[i])
    ensures |ys| == |t|
    ensures forall i {:trigger ys[i]} :: 0 <= i < |t| ==> Trainable(t[i]) && ys[i] == t[i].value.number
  {
    seq(|t|, i requires 0 <= i < |t| => assert Trainable(t[i]); t[i].value.number)
  }

  /** The natural logarithm of each reading. */
  function LogReadings(e: Elementary, t: seq<Observation>): (ys: seq<real>)
    requires forall i :: 0 <= i < |t| ==> Trainable(t[i])
    ensures |ys| == |t|
    ensures forall i {:trigger ys[i]} :: 0 <= i < |t| ==> Trainable(t[i]) && ys[i] == e.log(t[i].value.number)
  {
    seq(|t|, i requires 0 <= i < |t| => assert Trainable(t[i]); e.log(t[i].value.number))
  }

  /** The exponential of each value. */
  function Exps(e: Elementary, xs: seq<real>): (ys: seq<real>)
    requires e.Valid()
    ensures |ys| == |xs|
    ensures forall i {:trigger ys[i]} :: 0 <= i < |xs| ==> ys[i] == e.exp(xs[i]) && ys[i] > 0.0
  {
    ExpPositive(e, xs);
    seq(|xs|, i requires 0 <= i < |xs| => e.exp(xs[i]))
  }

  lemma ExpPositive(e: Elementary, xs: seq<real>)
    requires e.Valid()
    ensures forall i :: 0 <= i < |xs| ==> e.exp(xs[i]) > 0.0
  {
    forall i | 0 <= i < |xs|
      ensures e.exp(xs[i]) > 0.0
    {
      var x := xs[i];
      assert e.exp(x) > 0.0;
    }
  }

  /** Distinct years stay distinct once shifted. */
  lemma CentredDistinct(t: seq<Observation>, offset: int)
    requires DistinctYears(t)
    ensures Distinct(Centred(t, offset))
  {
  }

  /** A series the fitter accepts: no repeated year and at least two trainable readings. */
  predicate Accepted(s: seq<Observation>)
  {
    DistinctYears(s) && |TrainingSet(s)| >= 2
  }

  /** The abscissae of the training points. */
  function TrainingYears(s: seq<Observation>): seq<real>
    requires Accepted(s)
  {
    var t := TrainingSet(s);
    Centred(t, EarliestYear(t))
  }

  /** The ordinates of the training points. */
  function TrainingLogs(e: Elementary, s: seq<Observation>): seq<real>
    requires Accepted(s)
  {
    LogReadings(e, TrainingSet(s))
  }

  /** The regression problem is well posed. */
  lemma TrainingFittable(e: Elementary, s: seq<Observation>)
    requires Accepted(s)
    ensures Fittable(TrainingYears(s), TrainingLogs(e, s))
  {
    var t := TrainingSet(s);
    FilterKeepsDistinctYears(s, Trainable);
    CentredDistinct(t, EarliestYear(t));
  }

  /** The least-squares line through the training points in (shifted year, ln
      reading) coordinates. */
  function TrendLine(e: Elementary, s: seq<Observation>): Line
    requires Accepted(s)
  {
    TrainingFittable(e, s);
    Fit(TrainingYears(s), TrainingLogs(e, s))
  }

  /** The earliest training year, which the fitter subtracts from every year. */
  function Offset(s: seq<Observation>): (m: int)
    requires |TrainingSet(s)| > 0
    ensures exists i :: 0 <= i < |TrainingSet(s)| && TrainingSet(s)[i].year == m
    ensures forall i :: 0 <= i < |TrainingSet(s)| ==> m <= TrainingSet(s)[i].year
  {
    EarliestYear(TrainingSet(s))
  }

  /** The fitted curve `exp(line(year - offset))` at every input year, including
      the years whose readings were not used for fitting. */
  function Curve(e: Elementary, s: seq<Observation>): (c: seq<real>)
    requires e.Valid()
    requires Accepted(s)
    ensures |c| == |s|
    ensures forall i {:trigger c[i]} :: 0 <= i < |s| ==>
      c[i] > 0.0 && c[i] == e.exp(TrendLine(e, s).At((s[i].year - Offset(s)) as real))
  {
    Exps(e, Predictions(Centred(s, Offset(s)), TrendLine(e, s)))
  }

  /** The trend line at the shifted target year, in log space. */
  function PredictedLog(e: Elementary, s: seq<Observation>, target: int): real
    requires Accepted(s)
  {
    TrendLine(e, s).At((target - Offset(s)) as real)
  }

  /** The fit's back-transformed values at the training points. */
  function TrainingFitted(e: Elementary, s: seq<Observation>): (b: seq<real>)
    requires e.Valid()
    requires Accepted(s)
    ensures |b| == |TrainingSet(s)|
  {
    Exps(e, Predictions(TrainingYears(s), TrendLine(e, s)))
  }

  /** The four diagnostics: R-squared in log space, and R-squared, mean absolute
      error and root mean squared error of the back-transformed fit against the
      training readings. */
  datatype Diagnostics = Diagnostics(r2Log: real, r2Original: real, mae: real, rmse: real)

  function Diagnose(e: Elementary, s: seq<Observation>): (d: Diagnostics)
    requires e.Valid()
    requires Accepted(s)
    ensures 0.0 <= d.r2Log <= 1.0
    ensures d.r2Original <= 1.0 && d.mae >= 0.0 && d.rmse >= 0.0
  {
    var actual := Readings(TrainingSet(s));
    var back := TrainingFitted(e, s);
    LogScoreBetween(e, s);
    Diagnostics(
      R2Score(TrainingLogs(e, s), Predictions(TrainingYears(s), TrendLine(e, s))),
      R2Score(actual, back),
      MeanAbsoluteError(actual, back),
      RootMeanSquaredError(e, actual, back))
  }

  /** The fitter. It fails exactly when fewer than two readings are finite and
      positive. Otherwise the offset is the earliest training year, the curve has
      one strictly positive value per input point (filtered-out points included),
      `x_full` is the input years unchanged, the prediction is the exponential of
      the trend line at the shifted target year, and the diagnostics lie in their
      ranges. */
  function FitLogLinear(e: Elementary, s: seq<Observation>, target: int): (r: Result<FitResult, FitError>)
    requires e.Valid()
    requires DistinctYears(s)
    ensures r.Failure? <==> |TrainingSet(s)| < 2
    ensures r.Success? ==>
      && r.value.xFull == Years(s)
      && r.value.xOffset == Offset(s)
      && r.value.curve == Curve(e, s)
      && r.value.predictedLog == PredictedLog(e, s, target)
      && r.value.predicted == e.exp(r.value.predictedLog) && r.value.predicted > 0.0
      && 0.0 <= r.value.r2Log <= 1.0
      && r.value.r2Original <= 1.0 && r.value.mae >= 0.0 && r.value.rmse >= 0.0
  {
    if |TrainingSet(s)| < 2 then Failure(NotEnoughPositive)
    else
      var d := Diagnose(e, s);
      var predictedLog := PredictedLog(e, s, target);
      Success(FitResult(
        predicted := e.exp(predictedLog),
        r2Log := d.r2Log,
        r2Original := d.r2Original,
        mae := d.mae,
        rmse := d.rmse,
        curve := Curve(e, s),
        predictedLog := predictedLog,
        xFull := Years(s),
        xOffset := Offset(s)))
  }

  /** The fitter accepts a series exactly when two of its points have a finite,
      positive reading. */
  lemma FitAcceptedIffTwoPositive(e: Elementary, s: seq<Observation>, target: int)
    requires e.Valid()
    requires DistinctYears(s)
    ensures FitLogLinear(e, s, target).Success? <==>
      exists i, j :: 0 <= i < j < |s| && Trainable(s[i]) && Trainable(s[j])
  {
    FilterAtLeastTwo(s, Trainable);
  }

  /** The coefficient of determination of the least-squares fit lies in `[0, 1]`. */
  lemma LogScoreBetween(e: Elementary, s: seq<Observation>)
    requires Accepted(s)
    ensures 0.0 <= R2Score(TrainingLogs(e, s), Predictions(TrainingYears(s), TrendLine(e, s))) <= 1.0
  {
    var xs, ys := TrainingYears(s), TrainingLogs(e, s);
    TrainingFittable(e, s);
    FitBeatsMean(xs, ys);
    R2ScoreBetween(ys, Predictions(xs, TrendLine(e, s)));
  }

  /** No line fits the training points better, in log space, than the trend line. */
  lemma TrendLineLeastSquares(e: Elementary, s: seq<Observation>, other: Line)
    requires Accepted(s)
    ensures SquaredError(TrainingYears(s), TrainingLogs(e, s), TrendLine(e, s))
         <= SquaredError(TrainingYears(s), TrainingLogs(e, s), other)
  {
    TrainingFittable(e, s);
    FitMinimisesSquaredError(TrainingYears(s), TrainingLogs(e, s), other);
  }

  /** Every shifted training year is non-negative, and the earliest one is zero. */
  lemma TrainingYearsFromZero(s: seq<Observation>)
    requires Accepted(s)
    ensures forall i :: 0 <= i < |TrainingYears(s)| ==> TrainingYears(s)[i] >= 0.0
    ensures exists i :: 0 <= i < |TrainingYears(s)| && TrainingYears(s)[i] == 0.0
  {
    var t := TrainingSet(s);
    var xs := TrainingYears(s);
    var i :| 0 <= i < |t| && t[i].year == EarliestYear(t);
    assert xs[i] == 0.0;
  }

  /** Predicting at one of the input years gives the curve's value there. */
  lemma PredictionFollowsCurve(e: Elementary, s: seq<Observation>, i: int)
    requires e.Valid()
    requires Accepted(s)
    requires 0 <= i < |s|
    ensures FitLogLinear(e, s, s[i].year).Success?
    ensures FitLogLinear(e, s, s[i].year).value.predicted == Curve(e, s)[i]
  {
    var c := Curve(e, s);
    assert c[i] == e.exp(PredictedLog(e, s, s[i].year));
  }

  /** A rising trend never predicts less for a later target year. */
  lemma PredictionMonotone(e: Elementary, s: seq<Observation>, early: int, late: int)
    requires e.Valid() && e.Increasing()
    requires Accepted(s)
    ensures TrendLine(e, s).slope >= 0.0 && early <= late ==>
      FitLogLinear(e, s, early).value.predicted <= FitLogLinear(e, s, late).value.predicted
  {
    var l := TrendLine(e, s);
    if l.slope >= 0.0 && early <= late {
      var a, b := (early - Offset(s)) as real, (late - Offset(s)) as real;
      LineNonDecreasing(l, a, b);
      ExpNonDecreasing(e, l.At(a), l.At(b));
    }
  }

  lemma LineNonDecreasing(l: Line, a: real, b: real)
    requires l.slope >= 0.0 && a <= b
    ensures l.At(a) <= l.At(b)
  {
    assert l.slope * b - l.slope * a == l.slope * (b - a);
  }

  lemma ExpNonDecreasing(e: Elementary, a: real, b: real)
    requires e.Increasing() && a <= b
    ensures e.exp(a) <= e.exp(b)
  {
    if a < b {
      assert e.exp(a) < e.exp(b);
    }
  }

  /** Every trainable reading equals `exp(g(year))` exactly, for a line `g` over
      calendar years. */
  ghost predicate OnExponential(e: Elementary, s: seq<Observation>, g: Line)
  {
    forall i :: 0 <= i < |s| && Trainable(s[i]) ==> s[i].value.number == e.exp(g.At(s[i].year as real))
  }

  /** The line `g` over calendar years, written in years measured from `offset`. */
  function Rebase(g: Line, offset: int): (l: Line)
    ensures l.slope == g.slope
  {
    Line(g.slope, g.intercept + g.slope * offset as real)
  }

  lemma RebaseAt(g: Line, offset: int, y: int)
    ensures Rebase(g, offset).At((y - offset) as real) == g.At(y as real)
  {
    assert g.slope * (y - offset) as real == g.slope * y as real - g.slope * offset as real;
  }

  /** The training points of data on an exponential are on it too. */
  lemma TrainingOnExponential(e: Elementary, s: seq<Observation>, g: Line)
    requires OnExponential(e, s, g)
    ensures forall j :: 0 <= j < |TrainingSet(s)| ==>
      Trainable(TrainingSet(s)[j]) && TrainingSet(s)[j].value.number == e.exp(g.At(TrainingSet(s)[j].year as real))
  {
    var t := TrainingSet(s);
    forall j | 0 <= j < |t|
      ensures Trainable(t[j]) && t[j].value.number == e.exp(g.At(t[j].year as real))
    {
      assert t[j] in s;
    }
  }

  /** On points of an exponential, the logarithms lie on the rebased line. */
  lemma ExactLogsOf(e: Elementary, t: seq<Observation>, g: Line, offset: int)
    requires e.Valid()
    requires forall j :: 0 <= j < |t| ==> Trainable(t[j]) && t[j].value.number == e.exp(g.At(t[j].year as real))
    ensures forall j :: 0 <= j < |t| ==> LogReadings(e, t)[j] == Rebase(g, offset).At(Centred(t, offset)[j])
  {
    forall j | 0 <= j < |t|
      ensures LogReadings(e, t)[j] == Rebase(g, offset).At(Centred(t, offset)[j])
    {
      RebaseAt(g, offset, t[j].year);
    }
  }

  /** On points of an exponential, the rebased line brought back by `exp` gives the
      readings themselves. */
  lemma ExactBackOf(e: Elementary, t: seq<Observation>, g: Line, offset: int)
    requires e.Valid()
    requires forall j :: 0 <= j < |t| ==> Trainable(t[j]) && t[j].value.number == e.exp(g.At(t[j].year as real))
    ensures Exps(e, Predictions(Centred(t, offset), Rebase(g, offset))) == Readings(t)
  {
    var b := Exps(e, Predictions(Centred(t, offset), Rebase(g, offset)));
    forall j | 0 <= j < |t|
      ensures b[j] == Readings(t)[j]
    {
      RebaseAt(g, offset, t[j].year);
    }
  }

  /** On exact exponential data the trend line is that exponential's logarithm,
      rebased to the earliest training year. */
  lemma ExactTrend(e: Elementary, s: seq<Observation>, g: Line)
    requires e.Valid()
    requires Accepted(s)
    requires OnExponential(e, s, g)
    ensures TrendLine(e, s) == Rebase(g, Offset(s))
  {
    var t := TrainingSet(s);
    TrainingOnExponential(e, s, g);
    ExactLogsOf(e, t, g, Offset(s));
    TrainingFittable(e, s);
    FitRecoversExactLine(TrainingYears(s), TrainingLogs(e, s), Rebase(g, Offset(s)));
  }

  /** On exact exponential data the curve is the exponential at every input year. */
  lemma ExactCurve(e: Elementary, s: seq<Observation>, g: Line)
    requires e.Valid()
    requires Accepted(s)
    requires TrendLine(e, s) == Rebase(g, Offset(s))
    ensures forall i :: 0 <= i < |s| ==> Curve(e, s)[i] == e.exp(g.At(s[i].year as real))
  {
    var c := Curve(e, s);
    var offset := Offset(s);
    forall i | 0 <= i < |s|
      ensures c[i] == e.exp(g.At(s[i].year as real))
    {
      RebaseAt(g, offset, s[i].year);
    }
  }

  /** On exact exponential data the prediction is the exponential at the target year. */
  lemma ExactPrediction(e: Elementary, s: seq<Observation>, target: int, g: Line)
    requires Accepted(s)
    requires TrendLine(e, s) == Rebase(g, Offset(s))
    ensures PredictedLog(e, s, target) == g.At(target as real)
  {
    RebaseAt(g, Offset(s), target);
  }

  /** On exact exponential data every diagnostic reports a perfect fit. */
  lemma ExactDiagnostics(e: Elementary, s: seq<Observation>, g: Line)
    requires e.Valid()
    requires Accepted(s)
    requires OnExponential(e, s, g)
    ensures Diagnose(e, s) == Diagnostics(1.0, 1.0, 0.0, 0.0)
  {
    ExactTrend(e, s, g);
    var t := TrainingSet(s);
    TrainingOnExponential(e, s, g);
    ExactLogsOf(e, t, g, Offset(s));
    ExactBackOf(e, t, g, Offset(s));
    assert Predictions(TrainingYears(s), TrendLine(e, s)) == TrainingLogs(e, s);
  }

  /** Readings on an exact exponential `exp(g(year))` are recovered: the curve
      reproduces the exponential at every input year, the prediction is its value
      at the target year, and the fit is perfect by every diagnostic. */
  lemma ExactExponentialRecovered(e: Elementary, s: seq<Observation>, target: int, g: Line)
    requires e.Valid()
    requires Accepted(s)
    requires OnExponential(e, s, g)
    ensures FitLogLinear(e, s, target).Success?
    ensures FitLogLinear(e, s, target).value.predicted == e.exp(g.At(target as real))
    ensures forall i :: 0 <= i < |s| ==> FitLogLinear(e, s, target).value.curve[i] == e.exp(g.At(s[i].year as real))
    ensures FitLogLinear(e, s, target).value.r2Log == 1.0
    ensures FitLogLinear(e, s, target).value.r2Original == 1.0
    ensures FitLogLinear(e, s, target).value.mae == 0.0
    ensures FitLogLinear(e, s, target).value.rmse == 0.0
  {
    ExactTrend(e, s, g);
    ExactCurve(e, s, g);
    ExactPrediction(e, s, target, g);
    ExactDiagnostics(e, s, g);
  }

  /** A series whose trainable readings all equal `v` predicts `v` for every year. */
  lemma FlatSeriesPredictsConstant(e: Elementary, s: seq<Observation>, target: int, v: real)
    requires e.Valid()
    requires Accepted(s)
    requires forall i :: 0 <= i < |s| && Trainable(s[i]) ==> s[i].value.number == v
    ensures FitLogLinear(e, s, target).value.predicted == v
    ensures forall i :: 0 <= i < |s| ==> FitLogLinear(e, s, target).value.curve[i] == v
  {
    var t := TrainingSet(s);
    assert t[0] in s;
    var g := Line(0.0, e.log(v));
    forall i | 0 <= i < |s| && Trainable(s[i])
      ensures s[i].value.number == e.exp(g.At(s[i].year as real))
    {
    }
    ExactExponentialRecovered(e, s, target, g);
  }
}

=== FILE: map_viz.dfy ===
/** The arithmetic of `map_viz.py`: geographic coordinates to pixels of the world
    map, the colour of a PM2.5 reading under a chosen scale, which rows are drawn,
    and where the colour bar goes. The colormap and the percentile routine are
    parameters. */
module MapViz {
  import opened Wrappers
  import opened Seqs
  import opened Series

  /** `max(lo, min(v, hi))`. */
  function Clamp(v: int, lo: int, hi: int): (r: int)
    ensures lo <= hi ==> lo <= r <= hi
    ensures lo <= v <= hi ==> r == v
    ensures v < lo ==> r == lo
    ensures lo <= hi < v ==> r == hi
  {
    if v < hi then (if lo < v then v else lo) else (if lo < hi then hi else lo)
  }

  /** Clamping twice is clamping once, and clamping keeps the order of values
      (an empty range sends everything to `lo`). */
  lemma ClampIdempotentMonotone(v: int, w: int, lo: int, hi: int)
    ensures lo <= hi ==> Clamp(Clamp(v, lo, hi), lo, hi) == Clamp(v, lo, hi)
    ensures lo > hi ==> Clamp(v, lo, hi) == lo
    ensures v <= w ==> Clamp(v, lo, hi) <= Clamp(w, lo, hi)
  {
  }

  /** Python's `int()` of a float: truncation toward zero. */
  function Trunc(x: real): (n: int)
    ensures x >= 0.0 ==> 0 <= n && n as real <= x < n as real + 1.0
    ensures x < 0.0 ==> n <= 0 && n as real - 1.0 < x <= n as real
  {
    if x >= 0.0 then x.Floor else -((-x).Floor)
  }

  /** Truncation keeps the order of values. */
  lemma TruncMonotone(x: real, y: real)
    requires x <= y
    ensures Trunc(x) <= Trunc(y)
  {
  }

  /** Where the map puts longitude 0 / latitude 0, and pixels per degree. */
  datatype Geometry = Geometry(centerX: int, centerY: int, unitX: real, unitY: real)

  const DefaultGeometry := Geometry(998, 553, 5.1, 6.1)

  datatype Pixel = Pixel(x: int, y: int)

  /** The column before clamping: east grows to the right. */
  function RawX(lon: real, g: Geometry): int
  {
    Trunc(g.centerX as real + lon * g.unitX)
  }

  /** The row before clamping: north grows upwards. */
  function RawY(lat: real, g: Geometry): int
  {
    Trunc(g.centerY as real - lat * g.unitY)
  }

  function RawPixel(lat: real, lon: real, g: Geometry): Pixel
  {
    Pixel(RawX(lon, g), RawY(lat, g))
  }

  /** The pixel of a coordinate on an image `height` by `width`, clamped to the
      image. A non-empty image always receives a pixel inside it. */
  function CalcPixels(lat: real, lon: real, height: int, width: int, g: Geometry): (p: Pixel)
    ensures width > 0 ==> 0 <= p.x <= width - 1
    ensures height > 0 ==> 0 <= p.y <= height - 1
  {
    var raw := RawPixel(lat, lon, g);
    Pixel(Clamp(raw.x, 0, width - 1), Clamp(raw.y, 0, height - 1))
  }

  /** A coordinate whose pixel falls inside the image is drawn exactly there. */
  lemma InsidePixelUnclamped(lat: real, lon: real, height: int, width: int, g: Geometry)
    requires 0 <= RawPixel(lat, lon, g).x < width
    requires 0 <= RawPixel(lat, lon, g).y < height
    ensures CalcPixels(lat, lon, height, width, g) == RawPixel(lat, lon, g)
  {
  }

  /** Under the default geometry the unclamped column grows with the longitude. */
  lemma RawXMonotone(lon: real, lon2: real)
    requires lon <= lon2
    ensures RawX(lon, DefaultGeometry) <= RawX(lon2, DefaultGeometry)
  {
    TruncMonotone(998.0 + lon * 5.1, 998.0 + lon2 * 5.1);
  }

  /** Under the default geometry the unclamped row shrinks as the latitude grows. */
  lemma RawYAntitone(lat: real, lat2: real)
    requires lat <= lat2
    ensures RawY(lat, DefaultGeometry) >= RawY(lat2, DefaultGeometry)
  {
    TruncMonotone(553.0 - lat2 * 6.1, 553.0 - lat * 6.1);
  }

  /** Under the default geometry, the one the map plot uses, moving east never
      moves the dot left and moving north never moves it down. */
  lemma PixelsFollowCompass(lat: real, lon: real, lat2: real, lon2: real, height: int, width: int)
    requires lon <= lon2 && lat <= lat2
    ensures CalcPixels(lat, lon, height, width, DefaultGeometry).x <= CalcPixels(lat2, lon2, height, width, DefaultGeometry).x
    ensures CalcPixels(lat, lon, height, width, DefaultGeometry).y >= CalcPixels(lat2, lon2, height, width, DefaultGeometry).y
  {
    RawXMonotone(lon, lon2);
    RawYAntitone(lat, lat2);
    ClampIdempotentMonotone(RawX(lon, DefaultGeometry), RawX(lon2, DefaultGeometry), 0, width - 1);
    ClampIdempotentMonotone(RawY(lat2, DefaultGeometry), RawY(lat, DefaultGeometry), 0, height - 1);
  }

  lemma ScaleMonotone(a: real, b: real, u: real)
    requires a <= b && u >= 0.0
    ensures a * u <= b * u
  {
  }

  /** The colour scale: readings from `lo` to `hi` span the colormap. */
  datatype Scale = Scale(lo: real, hi: real)

  /** `np.nanpercentile` of a series at a percentage. */
  type Percentile = (seq<real>, real) -> real

  /** A percentile routine is sensible when a higher percentage never gives a
      lower value. */
  ghost predicate Monotone(pct: Percentile)
  {
    forall xs, p, q :: p <= q ==> pct(xs, p) <= pct(xs, q)
  }

  const DefaultScale := Scale(0.0, 100.0)
  const LowPercent := 2.5
  const HighPercent := 97.5

  /** The scale of a series: its 2.5th and 97.5th percentiles, widened to a unit
      range when they coincide. */
  function SeriesScale(xs: seq<real>, pct: Percentile): (s: Scale)
    ensures s.lo == pct(xs, LowPercent)
    ensures pct(xs, LowPercent) != pct(xs, HighPercent) ==> s.hi == pct(xs, HighPercent)
    ensures pct(xs, LowPercent) == pct(xs, HighPercent) ==> s.hi == s.lo + 1.0
    ensures Monotone(pct) ==> s.lo < s.hi
  {
    var lo, hi := pct(xs, LowPercent), pct(xs, HighPercent);
    if lo == hi then Scale(lo, lo + 1.0) else Scale(lo, hi)
  }

  /** The scale `pm25_to_bgr` uses: the given bounds when both are given, else the
      series' scale, else 0 to 100. */
  function ChooseScale(vmin: Option<real>, vmax: Option<real>, forScale: Option<seq<real>>, pct: Percentile): (s: Scale)
    ensures vmin.Some? && vmax.Some? ==> s == Scale(vmin.value, vmax.value)
    ensures (vmin.None? || vmax.None?) && forScale.None? ==> s == DefaultScale
    ensures (vmin.None? || vmax.None?) && forScale.Some? ==> s == SeriesScale(forScale.value, pct)
  {
    if vmin.Some? && vmax.Some? then Scale(vmin.value, vmax.value)
    else if forScale.None? then DefaultScale
    else SeriesScale(forScale.value, pct)
  }

  /** A scale the program picks itself is never empty or inverted: only bounds
      given by the caller can be. */
  lemma ChosenScaleProper(vmin: Option<real>, vmax: Option<real>, forScale: Option<seq<real>>, pct: Percentile)
    requires vmin.None? || vmax.None?
    requires Monotone(pct)
    ensures ChooseScale(vmin, vmax, forScale, pct).lo < ChooseScale(vmin, vmax, forScale, pct).hi
  {
  }

  /** `max(lo, min(v, hi))` over reals. */
  function Clip(v: real, s: Scale): (c: real)
    ensures s.lo <= s.hi ==> s.lo <= c <= s.hi
    ensures s.lo <= v <= s.hi ==> c == v
    ensures v <= s.lo ==> c == s.lo
    ensures s.lo <= s.hi <= v ==> c == s.hi
  {
    if v < s.hi then (if s.lo < v then v else s.lo) else (if s.lo < s.hi then s.hi else s.lo)
  }

  /** An inverted scale is refused by the normaliser. */
  datatype ScaleError = InvertedScale(lo: real, hi: real)

  /** The clipping normaliser of the plotting library: the position of `v` in the
      scale as a fraction, zero for an empty scale. */
  function Normalize(v: real, s: Scale): (r: Result<real, ScaleError>)
    ensures r.Success? <==> s.lo <= s.hi
    ensures r.Failure? ==> r.error == InvertedScale(s.lo, s.hi)
    ensures r.Success? ==> 0.0 <= r.value <= 1.0
  {
    if s.lo > s.hi then Failure(InvertedScale(s.lo, s.hi))
    else if s.lo == s.hi then Success(0.0)
    else
      var t := (v - s.lo) / (s.hi - s.lo);
      Success(if t < 0.0 then 0.0 else if t > 1.0 then 1.0 else t)
  }

  /** On a proper scale the normaliser keeps the order of values and sends the
      bounds to 0 and 1. */
  lemma NormalizeOrder(v: real, w: real, s: Scale)
    requires s.lo < s.hi
    requires v <= w
    ensures Normalize(v, s).value <= Normalize(w, s).value
    ensures Normalize(s.lo, s).value == 0.0 && Normalize(s.hi, s).value == 1.0
  {
    var d := s.hi - s.lo;
    assert (v - s.lo) / d <= (w - s.lo) / d by {
      assert (v - s.lo) / d * d == v - s.lo;
      assert (w - s.lo) / d * d == w - s.lo;
    }
  }

  /** With a series scale, readings up to the 2.5th percentile take the first
      colour, and readings from the 97.5th percentile on take the last, unless the
      two percentiles coincide. */
  lemma SeriesScaleSpansPercentiles(xs: seq<real>, pct: Percentile, v: real)
    requires Monotone(pct)
    ensures v <= pct(xs, LowPercent) ==> Normalize(v, SeriesScale(xs, pct)) == Success(0.0)
    ensures pct(xs, LowPercent) != pct(xs, HighPercent) && v >= pct(xs, HighPercent) ==>
      Normalize(v, SeriesScale(xs, pct)) == Success(1.0)
  {
    var s := SeriesScale(xs, pct);
    if v <= s.lo {
      NormalizeOrder(v, s.lo, s);
    }
    if pct(xs, LowPercent) != pct(xs, HighPercent) && v >= s.hi {
      NormalizeOrder(s.hi, v, s);
    }
  }

  /** A colormap entry, alpha left out; a colormap maps `[0, 1]` to entries. */
  datatype Rgb = Rgb(r: real, g: real, b: real)

  type Colormap = real -> Rgb

  /** Every entry of the colormap has its channels in `[0, 1]`. */
  ghost predicate ColormapValid(cmap: Colormap)
  {
    forall t :: 0.0 <= t <= 1.0 ==> 0.0 <= cmap(t).r <= 1.0 && 0.0 <= cmap(t).g <= 1.0 && 0.0 <= cmap(t).b <= 1.0
  }

  /** An 8-bit colour in the image library's blue-green-red order. */
  datatype Bgr = Bgr(b: int, g: int, r: int)

  const Grey := Bgr(200, 200, 200)

  /** A channel in `[0, 1]` as a byte: `255 * c` truncated toward zero. */
  function Byte(c: real): (n: int)
    ensures 0.0 <= c <= 1.0 ==> 0 <= n <= 255
    ensures 0.0 <= c ==> n as real <= 255.0 * c < n as real + 1.0
    ensures c < 0.0 ==> n as real - 1.0 < 255.0 * c <= n as real
  {
    Trunc(255.0 * c)
  }

  /** A colormap entry as 8-bit channels, blue first. */
  function Channels(c: Rgb): (o: Bgr)
    ensures 0.0 <= c.r <= 1.0 && 0.0 <= c.g <= 1.0 && 0.0 <= c.b <= 1.0 ==>
      0 <= o.b <= 255 && 0 <= o.g <= 255 && 0 <= o.r <= 255
  {
    Bgr(Byte(c.b), Byte(c.g), Byte(c.r))
  }

  /** The channel order is reversed: swapping red and blue in the entry swaps
      them in the output, and an entry's red lands in the output's third place. */
  lemma ChannelsReversed(c: Rgb)
    ensures Channels(Rgb(c.b, c.g, c.r)) == Bgr(Channels(c).r, Channels(c).g, Channels(c).b)
    ensures Channels(c).r == Byte(c.r) && Channels(c).b == Byte(c.b)
  {
  }

  /** The colour of a reading. A reading that is not a finite number is grey
      whatever the scale arguments; otherwise the reading is clipped to the chosen
      scale, normalised and looked up, which fails only on an inverted scale. */
  function Pm25ToBgr(pm: Value, vmin: Option<real>, vmax: Option<real>, forScale: Option<seq<real>>, pct: Percentile, cmap: Colormap): (r: Result<Bgr, ScaleError>)
    ensures !pm.Finite? ==> r == Success(Grey)
    ensures pm.Finite? ==> (r.Success? <==> ChooseScale(vmin, vmax, forScale, pct).lo <= ChooseScale(vmin, vmax, forScale, pct).hi)
    ensures ColormapValid(cmap) && r.Success? ==> 0 <= r.value.b <= 255 && 0 <= r.value.g <= 255 && 0 <= r.value.r <= 255
  {
    if !pm.Finite? then Success(Grey)
    else
      var s := ChooseScale(vmin, vmax, forScale, pct);
      match Normalize(Clip(pm.number, s), s)
      case Failure(e) => Failure(e)
      case Success(t) => Success(Channels(cmap(t)))
  }

  /** Readings at or beyond the ends of a proper scale take the colormap's end
      colours. */
  lemma Pm25Saturates(x: real, vmin: Option<real>, vmax: Option<real>, forScale: Option<seq<real>>, pct: Percentile, cmap: Colormap)
    requires ChooseScale(vmin, vmax, forScale, pct).lo < ChooseScale(vmin, vmax, forScale, pct).hi
    ensures x <= ChooseScale(vmin, vmax, forScale, pct).lo ==>
      Pm25ToBgr(Finite(x), vmin, vmax, forScale, pct, cmap) == Success(Channels(cmap(0.0)))
    ensures x >= ChooseScale(vmin, vmax, forScale, pct).hi ==>
      Pm25ToBgr(Finite(x), vmin, vmax, forScale, pct, cmap) == Success(Channels(cmap(1.0)))
  {
    var s := ChooseScale(vmin, vmax, forScale, pct);
    NormalizeOrder(s.lo, s.hi, s);
  }

  /** A reading inside a proper scale takes the colour of its relative position
      in the scale. */
  lemma Pm25Interpolates(x: real, vmin: Option<real>, vmax: Option<real>, forScale: Option<seq<real>>, pct: Percentile, cmap: Colormap)
    requires ChooseScale(vmin, vmax, forScale, pct).lo <= x <= ChooseScale(vmin, vmax, forScale, pct).hi
    requires ChooseScale(vmin, vmax, forScale, pct).lo < ChooseScale(vmin, vmax, forScale, pct).hi
    ensures var s := ChooseScale(vmin, vmax, forScale, pct);
      Pm25ToBgr(Finite(x), vmin, vmax, forScale, pct, cmap) == Success(Channels(cmap((x - s.lo) / (s.hi - s.lo))))
  {
    var s := ChooseScale(vmin, vmax, forScale, pct);
    FractionBetween(x - s.lo, s.hi - s.lo);
  }

  lemma FractionBetween(a: real, d: real)
    requires 0.0 <= a <= d && d > 0.0
    ensures 0.0 <= a / d <= 1.0
  {
    assert a / d * d == a;
  }

  /** A row of the frame given to the map: year, PM2.5 reading, latitude and
      longitude, each cell blank, infinite or a number. */
  datatype MapRow = MapRow(year: int, pm: Value, lat: Value, lon: Value)

  datatype MapFrame = MapFrame(columns: set<string>, rows: seq<MapRow>)

  const YearColumn := "year"
  const PmColumn := "pm25_concentration"
  const LatColumn := "latitude"
  const LonColumn := "longitude"

  /** None of the three cells is blank; `notna` keeps infinities. */
  predicate Complete(r: MapRow)
  {
    !r.pm.Missing? && !r.lat.Missing? && !r.lon.Missing?
  }

  /** A row is drawn when it is of the requested year and has all three cells. */
  predicate Drawn(r: MapRow, year: int)
  {
    r.year == year && Complete(r)
  }

  /** The rows drawn, in frame order. */
  function Selected(rows: seq<MapRow>, year: int): (sel: seq<MapRow>)
    ensures |sel| <= |rows|
    ensures forall r :: r in sel <==> r in rows && Drawn(r, year)
  {
    Filter(rows, (r: MapRow) => Drawn(r, year))
  }

  /** Every finite PM2.5 reading of the frame, of every year, in frame order: the
      series the colour scale is taken from. */
  function ScaleSeries(rows: seq<MapRow>): (xs: seq<real>)
    ensures |xs| <= |rows|
    ensures forall x :: x in xs <==> exists i :: 0 <= i < |rows| && rows[i].pm == Finite(x)
  {
    if |rows| == 0 then []
    else
      var rest := ScaleSeries(rows[1..]);
      assert forall i :: 0 < i < |rows| ==> rows[i] == rows[1..][i - 1];
      if rows[0].pm.Finite? then [rows[0].pm.number] + rest else rest
  }

  /** The scale series of one row: its reading, if finite. */
  lemma ScaleSeriesOfRow(r: MapRow)
    ensures ScaleSeries([r]) == if r.pm.Finite? then [r.pm.number] else []
  {
    assert [r][1..] == [];
  }

  /** The scale series of two stretches of rows is the first one's followed by
      the second one's. With `ScaleSeriesOfRow` this fixes every reading, its
      position and how often it occurs: one entry per row with a finite reading,
      in frame order. */
  lemma {:induction false} ScaleSeriesConcat(a: seq<MapRow>, b: seq<MapRow>)
    ensures ScaleSeries(a + b) == ScaleSeries(a) + ScaleSeries(b)
  {
    if |a| == 0 {
      assert a + b == b;
    } else {
      assert (a + b)[0] == a[0];
      assert (a + b)[1..] == a[1..] + b;
      ScaleSeriesConcat(a[1..], b);
    }
  }

  datatype Dot = Dot(at: Pixel, colour: Bgr)

  /** What is drawn: the dots, and the bounds written on the colour bar. */
  datatype MapPlot = MapPlot(dots: seq<Dot>, legend: Scale)

  /** A missing column, an infinite coordinate (`int` of an infinity overflows),
      or a scale the normaliser refuses. */
  datatype MapError = MissingColumn(name: string) | CoordinateOverflow | BadScale(error: ScaleError)

  /** A drawn row is refused when a coordinate is infinite, or when its reading is
      finite and the scale is inverted. */
  predicate Refused(r: MapRow, s: Scale)
  {
    !r.lat.Finite? || !r.lon.Finite? || (r.pm.Finite? && s.lo > s.hi)
  }

  /** The dot of a drawn row: its pixel first, then its colour. A non-finite
      reading is drawn grey whatever the scale. */
  function DotOf(r: MapRow, height: int, width: int, vmin: Option<real>, vmax: Option<real>, series: seq<real>, pct: Percentile, cmap: Colormap): (d: Result<Dot, MapError>)
    requires Complete(r)
    ensures !r.lat.Finite? || !r.lon.Finite? ==> d == Failure(CoordinateOverflow)
    ensures d.Success? <==> !Refused(r, ChooseScale(vmin, vmax, Some(series), pct))
    ensures d.Success? ==> d.value.at == CalcPixels(r.lat.number, r.lon.number, height, width, DefaultGeometry)
    ensures d.Success? ==> Success(d.value.colour) == Pm25ToBgr(r.pm, vmin, vmax, Some(series), pct, cmap)
    ensures d.Success? && r.pm.NonFinite? ==> d.value.colour == Grey
  {
    if !r.lat.Finite? || !r.lon.Finite? then Failure(CoordinateOverflow)
    else
      var colour := Pm25ToBgr(r.pm, vmin, vmax, Some(series), pct, cmap);
      if colour.Failure? then Failure(BadScale(colour.error))
      else Success(Dot(CalcPixels(r.lat.number, r.lon.number, height, width, DefaultGeometry), colour.value))
  }

  /** The dots of the drawn rows, in order; a row that fails ends the loop. */
  function Dots(sel: seq<MapRow>, height: int, width: int, vmin: Option<real>, vmax: Option<real>, series: seq<real>, pct: Percentile, cmap: Colormap): (r: Result<seq<Dot>, MapError>)
    requires forall i :: 0 <= i < |sel| ==> Complete(sel[i])
    ensures r.Success? <==> forall i :: 0 <= i < |sel| ==> DotOf(sel[i], height, width, vmin, vmax, series, pct, cmap).Success?
    ensures r.Success? ==> |r.value| == |sel|
    ensures r.Success? ==> forall i :: 0 <= i < |sel| ==>
      r.value[i] == DotOf(sel[i], height, width, vmin, vmax, series, pct, cmap).value
  {
    if |sel| == 0 then Success([])
    else
      var first := DotOf(sel[0], height, width, vmin, vmax, series, pct, cmap);
      if first.Failure? then Failure(first.error)
      else
        var rest := Dots(sel[1..], height, width, vmin, vmax, series, pct, cmap);
        assert forall i :: 0 < i < |sel| ==> sel[i] == sel[1..][i - 1];
        if rest.Failure? then Failure(rest.error)
        else Success([first.value] + rest.value)
  }

  /** The loop stops at the first row that fails, with that row's error. */
  lemma {:induction false} DotsStopAtFirstFailure(sel: seq<MapRow>, height: int, width: int, vmin: Option<real>, vmax: Option<real>, series: seq<real>, pct: Percentile, cmap: Colormap)
    requires forall i :: 0 <= i < |sel| ==> Complete(sel[i])
    ensures var r := Dots(sel, height, width, vmin, vmax, series, pct, cmap);
      r.Failure? ==> exists i ::
        && 0 <= i < |sel|
        && DotOf(sel[i], height, width, vmin, vmax, series, pct, cmap) == Failure(r.error)
        && forall k :: 0 <= k < i ==> DotOf(sel[k], height, width, vmin, vmax, series, pct, cmap).Success?
  {
    var r := Dots(sel, height, width, vmin, vmax, series, pct, cmap);
    if r.Failure? && DotOf(sel[0], height, width, vmin, vmax, series, pct, cmap).Success? {
      var rest := sel[1..];
      assert forall i :: 0 < i < |sel| ==> sel[i] == rest[i - 1];
      DotsStopAtFirstFailure(rest, height, width, vmin, vmax, series, pct, cmap);
      var j :| && 0 <= j < |rest|
               && DotOf(rest[j], height, width, vmin, vmax, series, pct, cmap) == Failure(r.error)
               && forall k :: 0 <= k < j ==> DotOf(rest[k], height, width, vmin, vmax, series, pct, cmap).Success?;
      assert forall k :: 0 <= k < j + 1 ==> DotOf(sel[k], height, width, vmin, vmax, series, pct, cmap).Success?;
    }
  }

  /** The map plot of `year` on an image `height` by `width`. The four columns are
      looked up in the order year, reading, latitude, longitude; a missing one is
      a key error. */
  function PlotPm25OnMap(f: MapFrame, year: int, height: int, width: int, vmin: Option<real>, vmax: Option<real>, pct: Percentile, cmap: Colormap): (r: Result<MapPlot, MapError>)
    ensures YearColumn !in f.columns ==> r == Failure(MissingColumn(YearColumn))
    ensures r.Success? ==> |r.value.dots| == |Selected(f.rows, year)|
    ensures r.Success? ==> r.value.legend == ChooseScale(vmin, vmax, Some(ScaleSeries(f.rows)), pct)
  {
    if YearColumn !in f.columns then Failure(MissingColumn(YearColumn))
    else if PmColumn !in f.columns then Failure(MissingColumn(PmColumn))
    else if LatColumn !in f.columns then Failure(MissingColumn(LatColumn))
    else if LonColumn !in f.columns then Failure(MissingColumn(LonColumn))
    else
      var sel := Selected(f.rows, year);
      var series := ScaleSeries(f.rows);
      assert forall i :: 0 <= i < |sel| ==> sel[i] in sel;
      var dots := Dots(sel, height, width, vmin, vmax, series, pct, cmap);
      if dots.Failure? then Failure(dots.error)
      else Success(MapPlot(dots.value, ChooseScale(vmin, vmax, Some(series), pct)))
  }

  /** With the four columns present, a plot is refused exactly when some drawn row
      has an infinite coordinate, or has a finite reading under an inverted
      scale. */
  lemma PlotRefusedIff(f: MapFrame, year: int, height: int, width: int, vmin: Option<real>, vmax: Option<real>, pct: Percentile, cmap: Colormap)
    requires {YearColumn, PmColumn, LatColumn, LonColumn} <= f.columns
    ensures var s := ChooseScale(vmin, vmax, Some(ScaleSeries(f.rows)), pct);
      var sel := Selected(f.rows, year);
      PlotPm25OnMap(f, year, height, width, vmin, vmax, pct, cmap).Failure? <==> exists i :: 0 <= i < |sel| && Refused(sel[i], s)
  {
    var sel := Selected(f.rows, year);
    assert forall i :: 0 <= i < |sel| ==> sel[i] in sel;
  }

  /** Every dot of a plot sits at the pixel of its row and is coloured with the
      scale the colour bar shows; a row with an infinite reading is drawn grey. */
  lemma PlotDrawsSelectedRows(f: MapFrame, year: int, height: int, width: int, vmin: Option<real>, vmax: Option<real>, pct: Percentile, cmap: Colormap)
    ensures var r := PlotPm25OnMap(f, year, height, width, vmin, vmax, pct, cmap);
      r.Success? ==> forall i :: 0 <= i < |r.value.dots| ==>
        var row := Selected(f.rows, year)[i];
        && row in f.rows && Drawn(row, year)
        && r.value.dots[i].at == CalcPixels(row.lat.number, row.lon.number, height, width, DefaultGeometry)
        && Success(r.value.dots[i].colour) == Pm25ToBgr(row.pm, Some(r.value.legend.lo), Some(r.value.legend.hi), None, pct, cmap)
        && (row.pm.NonFinite? ==> r.value.dots[i].colour == Grey)
  {
    var sel := Selected(f.rows, year);
    var r := PlotPm25OnMap(f, year, height, width, vmin, vmax, pct, cmap);
    if r.Success? {
      forall i | 0 <= i < |r.value.dots|
        ensures sel[i] in f.rows && Drawn(sel[i], year)
      {
        assert sel[i] in sel;
      }
    }
  }

  /** Where the resized colour bar goes on the map. */
  datatype Placement = Placement(x: int, y: int, width: int, height: int)

  const DefaultPadding := 10

  function Min3(a: real, b: real, c: real): (m: real)
    ensures m <= a && m <= b && m <= c
    ensures m == a || m == b || m == c
  {
    if a <= b && a <= c then a else if b <= c then b else c
  }

  /** The factor the colour bar is scaled by: the smallest of 40% of the map's
      width over the bar's, 12% of the map's height over the bar's, and 1. */
  function BarScale(hMap: nat, wMap: nat, hCb: int, wCb: int): (scale: real)
    requires hCb > 0 && wCb > 0
    ensures 0.0 <= scale <= 1.0
    ensures scale <= 0.4 * wMap as real / wCb as real && scale <= 0.12 * hMap as real / hCb as real
    ensures scale == 1.0 || scale == 0.4 * wMap as real / wCb as real || scale == 0.12 * hMap as real / hCb as real
  {
    Min3(0.4 * wMap as real / wCb as real, 0.12 * hMap as real / hCb as real, 1.0)
  }

  /** The image library refuses to resize to an empty image, and the array
      library refuses to paste the bar into a region whose shape it cannot be
      broadcast to. */
  datatype EmbedError =
    | EmptyResize(width: int, height: int)
    | ShapeMismatch(barWidth: int, barHeight: int, region: Placement)

  /** A side of `d` pixels scaled by `scale` keeps at least one pixel. */
  predicate AtLeastOnePixel(d: int, scale: real)
  {
    d as real * scale >= 1.0
  }

  /** `n` is the whole part of `d` pixels scaled by `scale`, for a non-negative
      product. */
  predicate ScaledFloor(n: int, d: int, scale: real)
  {
    n as real <= d as real * scale < n as real + 1.0
  }

  /** One side of the resized bar: `d` pixels scaled by `scale`, truncated. With
      a scale of at most 1 and at most `limit / d`, the side is no longer than
      `d` nor than `limit`, and it is empty exactly when less than one pixel is
      left. */
  function ResizedSide(d: int, limit: real, scale: real): (n: int)
    requires d > 0 && limit >= 0.0
    requires 0.0 <= scale <= 1.0 && scale <= limit / d as real
    ensures ScaledFloor(n, d, scale)
    ensures 0 <= n <= d && n as real <= limit
    ensures n == 0 <==> !AtLeastOnePixel(d, scale)
  {
    ShrunkWithin(d, limit, limit / d as real, scale);
    TruncZeroBelowOne(d as real * scale);
    Trunc(d as real * scale)
  }

  /** The size of the resized bar. */
  datatype Size = Size(width: int, height: int)

  /** The colour bar shrunk to at most 40% of the map's width and 12% of its
      height, never enlarged: each side is the bar's side times `BarScale`,
      truncated, and the resize is refused when a side would be empty. */
  function BarSize(hMap: nat, wMap: nat, hCb: int, wCb: int): (r: Result<Size, EmbedError>)
    requires hCb > 0 && wCb > 0
    ensures var scale := BarScale(hMap, wMap, hCb, wCb);
      r.Success? <==> AtLeastOnePixel(wCb, scale) && AtLeastOnePixel(hCb, scale)
    ensures var scale := BarScale(hMap, wMap, hCb, wCb);
      r.Success? ==> ScaledFloor(r.value.width, wCb, scale) && ScaledFloor(r.value.height, hCb, scale)
    ensures var scale := BarScale(hMap, wMap, hCb, wCb);
      r.Failure? ==> r.error.EmptyResize? && ScaledFloor(r.error.width, wCb, scale) && ScaledFloor(r.error.height, hCb, scale)
    ensures r.Failure? ==> r.error.width == 0 || r.error.height == 0
    ensures r.Success? ==> 1 <= r.value.width <= wCb && 1 <= r.value.height <= hCb
    ensures r.Success? ==> r.value.width as real <= 0.4 * wMap as real && r.value.height as real <= 0.12 * hMap as real
  {
    var scale := BarScale(hMap, wMap, hCb, wCb);
    var newW := ResizedSide(wCb, 0.4 * wMap as real, scale);
    var newH := ResizedSide(hCb, 0.12 * hMap as real, scale);
    if newW == 0 || newH == 0 then Failure(EmptyResize(newW, newH))
    else Success(Size(newW, newH))
  }

  /** The entries a Python slice `start:stop` selects from an axis of `len`
      entries: `lo` is the first, `count` how many. */
  datatype Span = Span(lo: int, count: int)

  /** A slice bound as Python reads it: a negative bound counts from the end, and
      a bound beyond either end is cut to that end. */
  function SliceBound(i: int, len: nat): (b: int)
    ensures 0 <= b <= len
    ensures 0 <= i <= len ==> b == i
    ensures -(len as int) <= i < 0 ==> b == i + len
    ensures i < -(len as int) ==> b == 0
    ensures len < i ==> b == len
  {
    if i < 0 then (if i + len < 0 then 0 else i + len)
    else if i > len then len
    else i
  }

  /** The span `start:stop` selects: always inside the axis; a slice inside the
      axis is taken as written, and one given wholly by negative bounds is
      counted from the end. */
  function Slice(start: int, stop: int, len: nat): (s: Span)
    ensures 0 <= s.lo && 0 <= s.count && s.lo + s.count <= len
    ensures 0 <= start <= stop <= len ==> s == Span(start, stop - start)
    ensures -(len as int) <= start <= stop < 0 ==> s == Span(start + len, stop - start)
  {
    var lo, hi := SliceBound(start, len), SliceBound(stop, len);
    Span(lo, if lo < hi then hi - lo else 0)
  }

  /** An axis of `size` entries can be assigned to a slice of `count` entries when
      the two agree, or when a single entry is repeated along the slice. */
  predicate Broadcasts(size: int, count: int)
  {
    size == count || size == 1
  }

  /** `overlay[y:y+h, x:x+w] = bar` for a bar of size `b` set `padding` pixels
      from the bottom-right corner: the region overwritten, or the refusal when
      the bar does not fit the region the slices select. */
  function Paste(hMap: nat, wMap: nat, b: Size, padding: int): (r: Result<Placement, EmbedError>)
    ensures var x, y := wMap - b.width - padding, hMap - b.height - padding;
      var cols, rows := Slice(x, x + b.width, wMap), Slice(y, y + b.height, hMap);
      r.Success? <==> Broadcasts(b.width, cols.count) && Broadcasts(b.height, rows.count)
    ensures r.Success? ==> 0 <= r.value.x && r.value.x + r.value.width <= wMap && 0 <= r.value.y && r.value.y + r.value.height <= hMap
    ensures r.Failure? ==> r.error.ShapeMismatch? && r.error.barWidth == b.width && r.error.barHeight == b.height
    ensures 0 <= padding && 0 <= b.width && 0 <= b.height && b.width + padding <= wMap && b.height + padding <= hMap ==>
      r == Success(Placement(wMap - b.width - padding, hMap - b.height - padding, b.width, b.height))
  {
    var x, y := wMap - b.width - padding, hMap - b.height - padding;
    var cols, rows := Slice(x, x + b.width, wMap), Slice(y, y + b.height, hMap);
    var region := Placement(cols.lo, rows.lo, cols.count, rows.count);
    if Broadcasts(b.width, cols.count) && Broadcasts(b.height, rows.count) then Success(region)
    else Failure(ShapeMismatch(b.width, b.height, region))
  }

  /** `embed_colorbar_to_image` after reading the images: the bar is resized and
      pasted near the bottom-right corner. The result is the region of the map
      that is overwritten, always inside the map; with room for the bar and its
      padding it is exactly the resized bar `padding` pixels from the corner. */
  function PlaceColourbar(hMap: nat, wMap: nat, hCb: int, wCb: int, padding: int): (r: Result<Placement, EmbedError>)
    requires hCb > 0 && wCb > 0
    ensures BarSize(hMap, wMap, hCb, wCb).Failure? ==> r == Failure(BarSize(hMap, wMap, hCb, wCb).error)
    ensures r.Failure? && r.error.ShapeMismatch? ==> BarSize(hMap, wMap, hCb, wCb).Success?
    ensures r.Success? ==> 0 <= r.value.x && r.value.x + r.value.width <= wMap && 0 <= r.value.y && r.value.y + r.value.height <= hMap
    ensures var b := BarSize(hMap, wMap, hCb, wCb);
      b.Success? && 0 <= padding && b.value.width + padding <= wMap && b.value.height + padding <= hMap ==>
        r == Success(Placement(wMap - b.value.width - padding, hMap - b.value.height - padding, b.value.width, b.value.height))
  {
    var b := BarSize(hMap, wMap, hCb, wCb);
    if b.Failure? then Failure(b.error) else Paste(hMap, wMap, b.value, padding)
  }

  /** A non-negative number truncates to zero exactly when it is below one. */
  lemma TruncZeroBelowOne(x: real)
    requires x >= 0.0
    ensures Trunc(x) == 0 <==> x < 1.0
  {
  }

  /** A map under 3 pixels wide or 9 pixels tall leaves no room for any colour
      bar: the resize is refused. */
  lemma ColourbarRefusedOnTinyMap(hMap: nat, wMap: nat, hCb: int, wCb: int, padding: int)
    requires hCb > 0 && wCb > 0
    ensures wMap < 3 || hMap < 9 ==> PlaceColourbar(hMap, wMap, hCb, wCb, padding).Failure?
    ensures wMap < 3 || hMap < 9 ==> PlaceColourbar(hMap, wMap, hCb, wCb, padding).error.EmptyResize?
  {
  }

  /** A side of `d` pixels scaled by at most 1 and at most `limit / d` is no
      longer than `d` and no longer than `limit`. */
  lemma ShrunkWithin(d: int, limit: real, ratio: real, scale: real)
    requires d > 0 && limit >= 0.0
    requires ratio == limit / d as real
    requires scale <= ratio && scale <= 1.0 && scale >= 0.0
    ensures 0 <= Trunc(d as real * scale) <= d
    ensures Trunc(d as real * scale) as real <= limit
  {
    assert ratio * d as real == limit;
    ScaleMonotone(scale, ratio, d as real);
    assert d as real * scale <= limit;
    ScaleMonotone(scale, 1.0, d as real);
    ScaleMonotone(0.0, scale, d as real);
  }

  lemma RatioAtLeastOne(limit: real, d: int)
    requires 0 < d && d as real <= limit
    ensures limit / d as real >= 1.0
  {
    var q := limit / d as real;
    assert q * d as real == limit;
    if q < 1.0 {
      ScaleMonotone(q, 1.0, d as real);
    }
  }

  /** With a padding of at most 60% of the map's width and 88% of its height, a
      resized bar is pasted at its own size `padding` pixels from the
      bottom-right corner; a bar already small enough is not resized. */
  lemma ColourbarFits(hMap: nat, wMap: nat, hCb: int, wCb: int, padding: int)
    requires hCb > 0 && wCb > 0
    ensures var b := BarSize(hMap, wMap, hCb, wCb);
      b.Success? && 0 <= padding && padding as real <= 0.6 * wMap as real && padding as real <= 0.88 * hMap as real ==>
        PlaceColourbar(hMap, wMap, hCb, wCb, padding)
          == Success(Placement(wMap - b.value.width - padding, hMap - b.value.height - padding, b.value.width, b.value.height))
    ensures wCb as real <= 0.4 * wMap as real && hCb as real <= 0.12 * hMap as real ==>
      BarSize(hMap, wMap, hCb, wCb) == Success(Size(wCb, hCb))
  {
    if wCb as real <= 0.4 * wMap as real && hCb as real <= 0.12 * hMap as real {
      RatioAtLeastOne(0.4 * wMap as real, wCb);
      RatioAtLeastOne(0.12 * hMap as real, hCb);
      assert BarScale(hMap, wMap, hCb, wCb) == 1.0;
    }
  }

  /** A padding that pushes the bar above the top edge, by less than the map's
      height, pastes it that much above the bottom instead: numpy reads the
      negative row offset from the end. */
  lemma PasteWrapsVertically(hMap: nat, wMap: nat, b: Size, padding: int)
    requires 0 <= padding && 0 <= b.width && 0 <= b.height && b.width + padding <= wMap
    ensures var y := hMap - b.height - padding;
      -(hMap as int) <= y && y + b.height < 0 ==>
        Paste(hMap, wMap, b, padding) == Success(Placement(wMap - b.width - padding, y + hMap, b.width, b.height))
  {
  }

  /** Two pastes with too large a padding: a bar 6 pixels wide on a map 15 wide
      starts one pixel left of the edge, the column slice is empty and the paste
      is refused; a one-pixel bar on a map 9 high lands on row 7 rather than 10
      rows above the bottom. Both use the default padding of 10. */
  lemma ColourbarPasteEdges()
    ensures PlaceColourbar(1000, 15, 1, 6, DefaultPadding) == Failure(ShapeMismatch(6, 1, Placement(14, 989, 0, 1)))
    ensures PlaceColourbar(9, 1000, 1, 1, DefaultPadding) == Success(Placement(989, 7, 1, 1))
  {
  }
}

=== FILE: metrics.dfy ===
/** The goodness-of-fit figures the fitter reports, in the textbook definitions the
    scoring library documents: the coefficient of determination, the mean absolute
    error, the mean squared error and its square root. */
module Metrics {
  import opened Sums
  import opened Numerics

  /** Sum of squared differences between observed and predicted values. */
  function SquaredErrorSum(actual: seq<real>, predicted: seq<real>): real
    requires |actual| == |predicted|
  {
    var d := Differences(actual, predicted);
    Dot(d, d)
  }

  /** Sum of squared deviations of the observed values from their mean. */
  function TotalSquares(actual: seq<real>): real
    requires |actual| > 0
  {
    Dot(Deviations(actual), Deviations(actual))
  }

  /** The squared-error sum is never negative, and it is zero exactly when every
      prediction is right. */
  lemma ExactIffNoError(actual: seq<real>, predicted: seq<real>)
    requires |actual| == |predicted|
    ensures SquaredErrorSum(actual, predicted) >= 0.0
    ensures SquaredErrorSum(actual, predicted) == 0.0 <==> actual == predicted
  {
    var d := Differences(actual, predicted);
    DotSelfNonnegative(d);
    DotSelfZero(d);
    if Dot(d, d) == 0.0 {
      forall i | 0 <= i < |actual|
        ensures actual[i] == predicted[i]
      {
        assert d[i] == 0.0;
      }
    }
  }

  /** The coefficient of determination `1 - SSres/SStot`. A constant observed
      series has no variance to explain: it scores 1 when predicted exactly and 0
      otherwise. */
  function R2Score(actual: seq<real>, predicted: seq<real>): (r: real)
    requires |actual| == |predicted| > 0
    ensures r <= 1.0
    ensures r == 1.0 <==> actual == predicted
  {
    var ssRes := SquaredErrorSum(actual, predicted);
    var ssTot := TotalSquares(actual);
    ExactIffNoError(actual, predicted);
    DotSelfNonnegative(Deviations(actual));
    if ssTot == 0.0 then (if ssRes == 0.0 then 1.0 else 0.0)
    else 1.0 - ssRes / ssTot
  }

  /** A predictor whose squared error is at most the total sum of squares scores
      in `[0, 1]`. */
  lemma R2ScoreBetween(actual: seq<real>, predicted: seq<real>)
    requires |actual| == |predicted| > 0
    requires SquaredErrorSum(actual, predicted) <= TotalSquares(actual)
    ensures 0.0 <= R2Score(actual, predicted) <= 1.0
  {
    var ssRes := SquaredErrorSum(actual, predicted);
    var ssTot := TotalSquares(actual);
    ExactIffNoError(actual, predicted);
    if ssTot != 0.0 {
      FractionAtMostOne(ssRes, ssTot);
    }
  }

  lemma FractionAtMostOne(a: real, b: real)
    requires 0.0 <= a <= b && b != 0.0
    ensures a / b <= 1.0
  {
    assert a / b * b == a;
  }

  /** Mean of the absolute differences. */
  function MeanAbsoluteError(actual: seq<real>, predicted: seq<real>): (m: real)
    requires |actual| == |predicted| > 0
    ensures m >= 0.0
    ensures m == 0.0 <==> actual == predicted
  {
    var a := Magnitudes(Differences(actual, predicted));
    AbsoluteErrorSum(actual, predicted);
    Sum(a) / |a| as real
  }

  /** The absolute differences sum to a non-negative number, zero exactly when
      every prediction is right. */
  lemma AbsoluteErrorSum(actual: seq<real>, predicted: seq<real>)
    requires |actual| == |predicted|
    ensures Sum(Magnitudes(Differences(actual, predicted))) >= 0.0
    ensures Sum(Magnitudes(Differences(actual, predicted))) == 0.0 <==> actual == predicted
  {
    var d := Differences(actual, predicted);
    var a := Magnitudes(d);
    SumNonnegativeZero(a);
    SumNonnegative(a);
    if Sum(a) == 0.0 {
      forall i | 0 <= i < |actual|
        ensures actual[i] == predicted[i]
      {
        assert a[i] == 0.0;
      }
    }
  }

  /** Mean of the squared differences. */
  function MeanSquaredError(actual: seq<real>, predicted: seq<real>): (m: real)
    requires |actual| == |predicted| > 0
    ensures m >= 0.0
    ensures m == 0.0 <==> actual == predicted
  {
    ExactIffNoError(actual, predicted);
    SquaredErrorSum(actual, predicted) / |actual| as real
  }

  /** Square root of the mean squared error. */
  function RootMeanSquaredError(e: Elementary, actual: seq<real>, predicted: seq<real>): (m: real)
    requires e.Valid()
    requires |actual| == |predicted| > 0
    ensures m >= 0.0
    ensures m == 0.0 <==> actual == predicted
  {
    var mse := MeanSquaredError(actual, predicted);
    SqrtZeroIffZero(e, mse);
    e.sqrt(mse)
  }

  /** The root of a positive number is positive; the root of zero is zero. */
  lemma SqrtZeroIffZero(e: Elementary, z: real)
    requires e.Valid()
    requires z >= 0.0
    ensures e.sqrt(z) >= 0.0
    ensures e.sqrt(z) == 0.0 <==> z == 0.0
  {
  }
}

=== FILE: numerics.dfy ===
/** The floating-point primitives the fitter relies on (`np.exp`, `np.log`,
    `np.sqrt`), passed in as functions together with the laws the model needs
    of them. Nothing else about their values is assumed. */
module Numerics {

  datatype Elementary = Elementary(exp: real -> real, log: real -> real, sqrt: real -> real)
  {
    /** The exponential is positive, the logarithm is its inverse on the positive
        reals, and `sqrt` gives the non-negative root (exactly zero at zero). */
    ghost predicate Valid()
    {
      && (forall x :: exp(x) > 0.0)
      && (forall x :: log(exp(x)) == x)
      && (forall y :: y > 0.0 ==> exp(log(y)) == y)
      && (forall z :: z >= 0.0 ==> sqrt(z) >= 0.0 && sqrt(z) * sqrt(z) == z)
      && sqrt(0.0) == 0.0
    }

    /** The exponential is strictly increasing. Kept apart from `Valid` because only
        the ordering facts need it. */
    ghost predicate Increasing()
    {
      forall x, y :: x < y ==> exp(x) < exp(y)
    }
  }
}

=== FILE: seqs.dfy ===
/** Order-preserving selection over sequences: the boolean-mask indexing
    (`df.loc[mask]`, `series[mask]`, `dropna`) used throughout the system. */
module Seqs {

  /** The elements of `s` that satisfy `keep`, in their original order. */
  function Filter<T(!new)>(s: seq<T>, keep: T -> bool): (r: seq<T>)
    ensures |r| <= |s|
    ensures forall x :: x in r <==> x in s && keep(x)
  {
    if |s| == 0 then []
    else if keep(s[0]) then [s[0]] + Filter(s[1..], keep)
    else Filter(s[1..], keep)
  }

  /** Selection distributes over concatenation: together with the behaviour on a
      single element this pins down that the order of `s` is kept. */
  lemma {:induction false} FilterConcat<T(!new)>(s: seq<T>, t: seq<T>, keep: T -> bool)
    ensures Filter(s + t, keep) == Filter(s, keep) + Filter(t, keep)
  {
    if |s| == 0 {
      assert s + t == t;
    } else {
      assert (s + t)[0] == s[0];
      assert (s + t)[1..] == s[1..] + t;
      FilterConcat(s[1..], t, keep);
    }
  }

  /** Nothing is dropped exactly when every element is kept. */
  lemma {:induction false} FilterKeepsAll<T(!new)>(s: seq<T>, keep: T -> bool)
    ensures |Filter(s, keep)| == |s| <==> forall i :: 0 <= i < |s| ==> keep(s[i])
  {
    if |s| > 0 {
      FilterKeepsAll(s[1..], keep);
      if !keep(s[0]) {
        assert |Filter(s, keep)| < |s|;
      } else if forall i :: 0 <= i < |s[1..]| ==> keep(s[1..][i]) {
        forall i | 0 <= i < |s|
          ensures keep(s[i])
        {
          if i > 0 { assert s[i] == s[1..][i - 1]; }
        }
      }
    }
  }

  /** A selection that keeps nothing is empty. */
  lemma {:induction false} FilterNone<T(!new)>(s: seq<T>, keep: T -> bool)
    requires forall i :: 0 <= i < |s| ==> !keep(s[i])
    ensures Filter(s, keep) == []
  {
    if |s| > 0 {
      FilterNone(s[1..], keep);
    }
  }

  /** A selection that drops nothing returns its input unchanged. */
  lemma {:induction false} FilterIdentity<T(!new)>(s: seq<T>, keep: T -> bool)
    requires forall i :: 0 <= i < |s| ==> keep(s[i])
    ensures Filter(s, keep) == s
  {
    if |s| > 0 {
      FilterIdentity(s[1..], keep);
    }
  }

  /** A relation holding between every earlier and later element of `s` still
      holds in the selection: selecting keeps the relative order. */
  lemma {:induction false} FilterPairwise<T(!new)>(s: seq<T>, keep: T -> bool, rel: (T, T) -> bool)
    requires forall i, j :: 0 <= i < j < |s| ==> rel(s[i], s[j])
    ensures forall i, j :: 0 <= i < j < |Filter(s, keep)| ==> rel(Filter(s, keep)[i], Filter(s, keep)[j])
  {
    if |s| > 0 {
      var t := s[1..];
      forall i, j | 0 <= i < j < |t|
        ensures rel(t[i], t[j])
      {
        assert t[i] == s[i + 1] && t[j] == s[j + 1];
      }
      FilterPairwise(t, keep, rel);
      if keep(s[0]) {
        var f := Filter(s, keep);
        forall i, j | 0 <= i < j < |f|
          ensures rel(f[i], f[j])
        {
          if i == 0 {
            assert f[j] == Filter(t, keep)[j - 1];
            assert f[j] in t;
            var k :| 0 <= k < |t| && t[k] == f[j];
            assert s[k + 1] == f[j];
          } else {
            assert f[i] == Filter(t, keep)[i - 1] && f[j] == Filter(t, keep)[j - 1];
          }
        }
      }
    }
  }

  /** Two positions passing the test give a selection of at least two. */
  lemma {:induction false} FilterTwoFromWitnesses<T(!new)>(s: seq<T>, keep: T -> bool, i: int, j: int)
    requires 0 <= i < j < |s| && keep(s[i]) && keep(s[j])
    ensures |Filter(s, keep)| >= 2
  {
    var t := s[1..];
    if i == 0 {
      assert s[j] in t;
      assert |Filter(t, keep)| >= 1;
    } else {
      FilterTwoFromWitnesses(t, keep, i - 1, j - 1);
    }
  }

  /** A selection of at least two has two positions of the input passing the test. */
  lemma {:induction false} WitnessesFromFilterTwo<T(!new)>(s: seq<T>, keep: T -> bool) returns (i: int, j: int)
    requires |Filter(s, keep)| >= 2
    ensures 0 <= i < j < |s| && keep(s[i]) && keep(s[j])
  {
    var t := s[1..];
    if keep(s[0]) {
      var x := Filter(t, keep)[0];
      assert x in t;
      var k :| 0 <= k < |t| && t[k] == x;
      assert s[k + 1] == x;
      i, j := 0, k + 1;
    } else {
      var a, b := WitnessesFromFilterTwo(t, keep);
      assert s[a + 1] == t[a] && s[b + 1] == t[b];
      i, j := a + 1, b + 1;
    }
  }

  /** A selection has at least two elements exactly when two positions of the
      input pass the test. */
  lemma FilterAtLeastTwo<T(!new)>(s: seq<T>, keep: T -> bool)
    ensures |Filter(s, keep)| >= 2 <==>
      exists i, j :: 0 <= i < j < |s| && keep(s[i]) && keep(s[j])
  {
    if exists i, j :: 0 <= i < j < |s| && keep(s[i]) && keep(s[j]) {
      var i, j :| 0 <= i < j < |s| && keep(s[i]) && keep(s[j]);
      FilterTwoFromWitnesses(s, keep, i, j);
    }
    if |Filter(s, keep)| >= 2 {
      var i, j := WitnessesFromFilterTwo(s, keep);
    }
  }
}

=== FILE: series.dfy ===
/** Year-indexed series of readings, as a table column appears once it is cut
    out of the frame: one observation per index year, whose value is a number,
    a non-finite float, or missing (NaN). */
module Series {
  import opened Seqs

  /** A cell: `Missing` is NaN, `NonFinite` an infinity, `Finite` any other float. */
  datatype Value = Missing | NonFinite | Finite(number: real)

  datatype Observation = Observation(year: int, value: Value)

  /** Survives `dropna`. */
  predicate Present(o: Observation)
  {
    !o.value.Missing?
  }

  /** Usable for the log-linear fit: finite and strictly positive. */
  predicate Trainable(o: Observation)
  {
    o.value.Finite? && o.value.number > 0.0
  }

  /** The index of the series. */
  function Years(s: seq<Observation>): (ys: seq<int>)
    ensures |ys| == |s|
    ensures forall i :: 0 <= i < |s| ==> ys[i] == s[i].year
  {
    seq(|s|, i requires 0 <= i < |s| => s[i].year)
  }

  predicate DistinctYears(s: seq<Observation>)
  {
    forall i, j :: 0 <= i < j < |s| ==> s[i].year != s[j].year
  }

  /** `dropna`: the observations that are not missing, in index order. */
  function DropMissing(s: seq<Observation>): (r: seq<Observation>)
    ensures forall o :: o in r <==> o in s && !o.value.Missing?
  {
    Filter(s, Present)
  }

  /** Selecting observations keeps the index free of repeated years. */
  lemma FilterKeepsDistinctYears(s: seq<Observation>, keep: Observation -> bool)
    requires DistinctYears(s)
    ensures DistinctYears(Filter(s, keep))
  {
    var rel := (a: Observation, b: Observation) => a.year != b.year;
    FilterPairwise(s, keep, rel);
  }
}

=== FILE: sums.dfy ===
/** Real-valued sums, inner products and means: the arithmetic underneath the
    least-squares fit, the regression metrics and the per-year averages. */
module Sums {

  function Sum(xs: seq<real>): real
  {
    if |xs| == 0 then 0.0 else xs[0] + Sum(xs[1..])
  }

  /** The inner product of two sequences of equal length. */
  function Dot(a: seq<real>, b: seq<real>): real
    requires |a| == |b|
  {
    if |a| == 0 then 0.0 else a[0] * b[0] + Dot(a[1..], b[1..])
  }

  function Mean(xs: seq<real>): real
    requires |xs| > 0
  {
    Sum(xs) / |xs| as real
  }

  /** Each element minus the mean of all of them. */
  function Deviations(xs: seq<real>): (d: seq<real>)
    requires |xs| > 0
    ensures |d| == |xs|
    ensures forall i {:trigger d[i]} :: 0 <= i < |xs| ==> d[i] == xs[i] - Mean(xs)
  {
    Shift(xs, Mean(xs))
  }

  /** Every element minus `e`. */
  function Shift(a: seq<real>, e: real): (d: seq<real>)
    ensures |d| == |a|
    ensures forall i {:trigger d[i]} :: 0 <= i < |a| ==> d[i] == a[i] - e
  {
    seq(|a|, i requires 0 <= i < |a| => a[i] - e)
  }

  /** Element-wise `a - k*b`. */
  function Combination(a: seq<real>, b: seq<real>, k: real): (d: seq<real>)
    requires |a| == |b|
    ensures |d| == |a|
    ensures forall i {:trigger d[i]} :: 0 <= i < |a| ==> d[i] == a[i] - k * b[i]
  {
    seq(|a|, i requires 0 <= i < |a| => a[i] - k * b[i])
  }

  /** Element-wise `s*a + c`. */
  function Affine(a: seq<real>, s: real, c: real): (d: seq<real>)
    ensures |d| == |a|
    ensures forall i {:trigger d[i]} :: 0 <= i < |a| ==> d[i] == s * a[i] + c
  {
    seq(|a|, i requires 0 <= i < |a| => s * a[i] + c)
  }

  /** Element-wise `a - b`. */
  function Differences(a: seq<real>, b: seq<real>): (d: seq<real>)
    requires |a| == |b|
    ensures |d| == |a|
    ensures forall i {:trigger d[i]} :: 0 <= i < |a| ==> d[i] == a[i] - b[i]
  {
    seq(|a|, i requires 0 <= i < |a| => a[i] - b[i])
  }

  /** Element-wise absolute value. */
  function Magnitudes(a: seq<real>): (m: seq<real>)
    ensures |m| == |a|
    ensures forall i {:trigger m[i]} :: 0 <= i < |a| ==> m[i] == (if a[i] < 0.0 then -a[i] else a[i])
  {
    seq(|a|, i requires 0 <= i < |a| => if a[i] < 0.0 then -a[i] else a[i])
  }

  /** Dropping the first element commutes with forming a combination. */
  lemma CombinationTail(a: seq<real>, b: seq<real>, k: real)
    requires |a| == |b| > 0
    ensures Combination(a, b, k)[1..] == Combination(a[1..], b[1..], k)
  {
    var d, e := Combination(a, b, k)[1..], Combination(a[1..], b[1..], k);
    forall j | 0 <= j < |d|
      ensures d[j] == e[j]
    {
      assert a[1..][j] == a[j + 1] && b[1..][j] == b[j + 1];
    }
  }

  /** Summation is linear. */
  lemma {:induction false} SumCombination(a: seq<real>, b: seq<real>, k: real)
    requires |a| == |b|
    ensures Sum(Combination(a, b, k)) == Sum(a) - k * Sum(b)
  {
    if |a| > 0 {
      CombinationTail(a, b, k);
      SumCombination(a[1..], b[1..], k);
      assert k * (b[0] + Sum(b[1..])) == k * b[0] + k * Sum(b[1..]);
    }
  }

  /** Subtracting `e` from every element subtracts `n*e` from the sum. */
  lemma {:induction false} SumShift(a: seq<real>, e: real)
    ensures Sum(Shift(a, e)) == Sum(a) - |a| as real * e
  {
    if |a| > 0 {
      assert Shift(a, e)[1..] == Shift(a[1..], e);
      SumShift(a[1..], e);
      assert |a| as real * e == e + (|a| - 1) as real * e;
    }
  }

  /** The inner product is linear in its second argument. */
  lemma {:induction false} DotCombination(c: seq<real>, a: seq<real>, b: seq<real>, k: real)
    requires |c| == |a| == |b|
    ensures Dot(c, Combination(a, b, k)) == Dot(c, a) - k * Dot(c, b)
  {
    if |c| > 0 {
      var d := Combination(a, b, k);
      CombinationTail(a, b, k);
      DotCombination(c[1..], a[1..], b[1..], k);
      assert c[0] * d[0] == c[0] * a[0] - k * (c[0] * b[0]);
      assert k * (c[0] * b[0] + Dot(c[1..], b[1..])) == k * (c[0] * b[0]) + k * Dot(c[1..], b[1..]);
    }
  }

  /** Element-wise `s*a`. */
  function Scale(a: seq<real>, s: real): (d: seq<real>)
    ensures |d| == |a|
    ensures forall i {:trigger d[i]} :: 0 <= i < |a| ==> d[i] == s * a[i]
  {
    seq(|a|, i requires 0 <= i < |a| => s * a[i])
  }

  lemma ScaleTail(a: seq<real>, s: real)
    requires |a| > 0
    ensures Scale(a, s)[1..] == Scale(a[1..], s)
  {
    var d, e := Scale(a, s)[1..], Scale(a[1..], s);
    forall j | 0 <= j < |d|
      ensures d[j] == e[j]
    {
      assert a[1..][j] == a[j + 1];
    }
  }

  /** Scaling the first factor scales the inner product. */
  lemma {:induction false} DotScale(a: seq<real>, r: seq<real>, s: real)
    requires |a| == |r|
    ensures Dot(Scale(a, s), r) == s * Dot(a, r)
  {
    if |a| > 0 {
      ScaleTail(a, s);
      DotScale(a[1..], r[1..], s);
      assert s * (a[0] * r[0] + Dot(a[1..], r[1..])) == s * (a[0] * r[0]) + s * Dot(a[1..], r[1..]);
    }
  }

  /** The inner product with an affine image splits into its slope and offset parts. */
  lemma DotAffine(a: seq<real>, r: seq<real>, s: real, c: real)
    requires |a| == |r|
    ensures Dot(Affine(a, s, c), r) == s * Dot(a, r) + c * Sum(r)
  {
    var w := Affine(a, s, c);
    assert Shift(w, c) == Scale(a, s);
    DotShift(w, r, c);
    DotScale(a, r, s);
  }

  /** The inner product distributes over a point-wise difference in its second argument. */
  lemma {:induction false} DotDifferences(c: seq<real>, a: seq<real>, b: seq<real>)
    requires |c| == |a| == |b|
    ensures Dot(c, Differences(a, b)) == Dot(c, a) - Dot(c, b)
  {
    if |c| > 0 {
      var d := Differences(a, b);
      assert d[1..] == Differences(a[1..], b[1..]);
      DotDifferences(c[1..], a[1..], b[1..]);
      assert c[0] * d[0] == c[0] * a[0] - c[0] * b[0];
    }
  }

  /** Shifting the first factor by a constant changes the inner product by that
      constant times the sum of the second. */
  lemma {:induction false} DotShift(a: seq<real>, r: seq<real>, e: real)
    requires |a| == |r|
    ensures Dot(a, r) == Dot(Shift(a, e), r) + e * Sum(r)
  {
    if |a| > 0 {
      var d := Shift(a, e);
      assert d[1..] == Shift(a[1..], e);
      DotShift(a[1..], r[1..], e);
      assert a[0] * r[0] == d[0] * r[0] + e * r[0];
      assert e * (r[0] + Sum(r[1..])) == e * r[0] + e * Sum(r[1..]);
    }
  }

  /** Against a sequence summing to zero, shifting the first factor leaves the
      inner product unchanged. */
  lemma DotShiftBalanced(a: seq<real>, r: seq<real>, e: real)
    requires |a| == |r|
    requires Sum(r) == 0.0
    ensures Dot(a, r) == Dot(Shift(a, e), r)
  {
    DotShift(a, r, e);
    TimesZero(e, Sum(r));
  }

  lemma TimesZero(a: real, b: real)
    requires b == 0.0
    ensures a * b == 0.0
  {
  }

  lemma {:induction false} DotSymmetric(a: seq<real>, b: seq<real>)
    requires |a| == |b|
    ensures Dot(a, b) == Dot(b, a)
  {
    if |a| > 0 {
      DotSymmetric(a[1..], b[1..]);
    }
  }

  lemma {:induction false} DotSelfNonnegative(a: seq<real>)
    ensures Dot(a, a) >= 0.0
  {
    if |a| > 0 {
      DotSelfNonnegative(a[1..]);
      assert a[0] * a[0] >= 0.0;
    }
  }

  /** A product of two same-signed factors plus a non-negative rest is positive. */
  lemma ProductPlusPositive(x: real, y: real, rest: real, total: real)
    requires (x > 0.0 && y > 0.0) || (x < 0.0 && y < 0.0)
    requires rest >= 0.0
    requires total == x * y + rest
    ensures total > 0.0
  {
    if x < 0.0 {
      assert x * y == (-x) * (-y);
    }
  }

  /** A sum of squares with a non-zero term is positive. */
  lemma {:induction false} DotSelfPositive(a: seq<real>, i: int)
    requires 0 <= i < |a|
    requires a[i] != 0.0
    ensures Dot(a, a) > 0.0
  {
    if i == 0 {
      DotSelfNonnegative(a[1..]);
      ProductPlusPositive(a[0], a[0], Dot(a[1..], a[1..]), Dot(a, a));
    } else {
      assert a[1..][i - 1] == a[i];
      DotSelfPositive(a[1..], i - 1);
      assert a[0] * a[0] >= 0.0;
    }
  }

  /** Deviations from the mean cancel out. */
  lemma DeviationsSumToZero(xs: seq<real>)
    requires |xs| > 0
    ensures Sum(Deviations(xs)) == 0.0
  {
    SumShift(xs, Mean(xs));
    var n := |xs| as real;
    assert n * Mean(xs) == Sum(xs);
  }

  lemma {:induction false} SumNonnegative(xs: seq<real>)
    requires forall i :: 0 <= i < |xs| ==> xs[i] >= 0.0
    ensures Sum(xs) >= 0.0
  {
    if |xs| > 0 {
      SumNonnegative(xs[1..]);
    }
  }

  lemma {:induction false} SumBetween(xs: seq<real>, lo: real, hi: real)
    requires forall i :: 0 <= i < |xs| ==> lo <= xs[i] <= hi
    ensures |xs| as real * lo <= Sum(xs) <= |xs| as real * hi
  {
    if |xs| > 0 {
      SumBetween(xs[1..], lo, hi);
    }
  }

  /** The mean lies between any lower and upper bound of the data. */
  lemma MeanBetween(xs: seq<real>, lo: real, hi: real)
    requires |xs| > 0
    requires forall i :: 0 <= i < |xs| ==> lo <= xs[i] <= hi
    ensures lo <= Mean(xs) <= hi
  {
    SumBetween(xs, lo, hi);
    var n := |xs| as real;
    assert n * lo <= Sum(xs) <= n * hi;
    assert lo == (n * lo) / n;
    assert hi == (n * hi) / n;
  }

  lemma {:induction false} DotWithZeros(a: seq<real>, z: seq<real>)
    requires |a| == |z|
    requires forall i {:trigger z[i]} :: 0 <= i < |z| ==> z[i] == 0.0
    ensures Dot(a, z) == 0.0
  {
    if |a| > 0 {
      DotWithZeros(a[1..], z[1..]);
    }
  }

  /** A sum of squares vanishes exactly when every term does. */
  lemma DotSelfZero(a: seq<real>)
    ensures Dot(a, a) == 0.0 <==> forall i :: 0 <= i < |a| ==> a[i] == 0.0
  {
    if forall i :: 0 <= i < |a| ==> a[i] == 0.0 {
      DotWithZeros(a, a);
    } else {
      var i :| 0 <= i < |a| && a[i] != 0.0;
      DotSelfPositive(a, i);
    }
  }

  /** A sum of non-negative terms with a positive term is positive. */
  lemma {:induction false} SumPositive(xs: seq<real>, i: int)
    requires forall k :: 0 <= k < |xs| ==> xs[k] >= 0.0
    requires 0 <= i < |xs| && xs[i] > 0.0
    ensures Sum(xs) > 0.0
  {
    SumNonnegative(xs[1..]);
    if i > 0 {
      assert xs[1..][i - 1] == xs[i];
      SumPositive(xs[1..], i - 1);
    }
  }

  /** A sum of non-negative terms vanishes exactly when every term does. */
  lemma SumNonnegativeZero(xs: seq<real>)
    requires forall k :: 0 <= k < |xs| ==> xs[k] >= 0.0
    ensures Sum(xs) == 0.0 <==> forall i :: 0 <= i < |xs| ==> xs[i] == 0.0
  {
    if forall i :: 0 <= i < |xs| ==> xs[i] == 0.0 {
      SumBetween(xs, 0.0, 0.0);
    } else {
      var i :| 0 <= i < |xs| && xs[i] != 0.0;
      SumPositive(xs, i);
    }
  }
}

=== FILE: text.dfy ===
/** The string operations the loader applies to country and city names: letter
    case folding and substring search. */
module Text {
  import opened Wrappers

  predicate IsUpper(c: char)
  {
    'A' <= c <= 'Z'
  }

  /** One character in lower case (letters of the ASCII range). */
  function LowerChar(c: char): (d: char)
    ensures !IsUpper(d)
    ensures IsUpper(c) ==> d as int == c as int + 32
    ensures !IsUpper(c) ==> d == c
  {
    if IsUpper(c) then (c as int + 32) as char else c
  }

  /** A string in lower case. */
  function Lower(s: string): (r: string)
    ensures |r| == |s|
    ensures forall i {:trigger r[i]} :: 0 <= i < |s| ==> r[i] == LowerChar(s[i])
  {
    seq(|s|, i requires 0 <= i < |s| => LowerChar(s[i]))
  }

  /** Lower-casing twice is lower-casing once, and it changes exactly the strings
      that hold an upper-case letter. */
  lemma LowerIdempotent(s: string)
    ensures Lower(Lower(s)) == Lower(s)
    ensures Lower(s) == s <==> forall i :: 0 <= i < |s| ==> !IsUpper(s[i])
  {
    var l := Lower(s);
    assert forall i :: 0 <= i < |s| ==> Lower(l)[i] == l[i];
    if Lower(s) == s {
      assert forall i :: 0 <= i < |s| ==> !IsUpper(l[i]);
    }
  }

  /** `sub` occurs in `s` at position `i`. */
  predicate OccursAt(s: string, sub: string, i: int)
  {
    0 <= i && i + |sub| <= |s| && s[i..i + |sub|] == sub
  }

  /** `sub` occurs somewhere in `s`. */
  ghost predicate Contains(s: string, sub: string)
  {
    exists i :: OccursAt(s, sub, i)
  }

  /** The first position at or after `from` where `sub` occurs, if any. */
  function Find(s: string, sub: string, from: nat): (r: Option<nat>)
    decreases |s| - from
  {
    if from + |sub| > |s| then None
    else if s[from..from + |sub|] == sub then Some(from)
    else Find(s, sub, from + 1)
  }

  /** The search finds the first occurrence: it answers with a position exactly
      when `sub` occurs at or after `from`, and no earlier position matches. */
  lemma {:induction false} FindFirst(s: string, sub: string, from: nat)
    ensures Find(s, sub, from).Some? <==> exists i :: from <= i && OccursAt(s, sub, i)
    ensures Find(s, sub, from).Some? ==>
      && from <= Find(s, sub, from).value
      && OccursAt(s, sub, Find(s, sub, from).value)
      && forall i :: from <= i < Find(s, sub, from).value ==> !OccursAt(s, sub, i)
    decreases |s| - from
  {
    if from + |sub| > |s| {
      assert forall i :: from <= i ==> !OccursAt(s, sub, i);
    } else if s[from..from + |sub|] == sub {
      assert OccursAt(s, sub, from);
    } else {
      FindFirst(s, sub, from + 1);
      assert !OccursAt(s, sub, from);
      if exists i :: from <= i && OccursAt(s, sub, i) {
        var i :| from <= i && OccursAt(s, sub, i);
        assert from + 1 <= i;
      }
    }
  }

  /** Substring search from the start decides `Contains`. */
  function ContainsSearch(s: string, sub: string): (b: bool)
    ensures b <==> Contains(s, sub)
  {
    FindFirst(s, sub, 0);
    Find(s, sub, 0).Some?
  }

  /** The empty string occurs in every string, and every string in itself. */
  lemma ContainsTrivial(s: string)
    ensures Contains(s, "")
    ensures Contains(s, s)
  {
    assert OccursAt(s, "", 0);
    assert OccursAt(s, s, 0);
  }
}

=== FILE: wrappers.dfy ===
/** Option and Result values standing in for Python's `None` and for raised exceptions. */
module Wrappers {

  datatype Option<+T> = None | Some(value: T)

  /** `Failure` carries the exception the source raises; `Success` the value it returns. */
  datatype Result<+R, +E> = Success(value: R) | Failure(error: E)
}
